=== FILE: README.md ===
# pam-face-auth in Dafny

A model of the decision logic of pam-face-auth. The system has three
parts:

- **The authentication daemon** (`pam-module-deamon.py`). For each
  connection on the Unix socket `/tmp/face_auth`, it checks the request.
  It then loads the user's face templates from the template directory
  and samples the camera until ten seconds have passed, checking the
  clock before each read. It answers with a four-byte status.
- **The PAM client** (`face_auth.c`). It sends `faceauth` to the daemon,
  reads the status and exits with it.
- **The enrollment window** (`main.py`). It keeps the user's template
  files and encodings in two parallel lists. It saves new templates
  under numbered names, deletes selected ones, and shows a live
  recognition preview.

Cameras, the face detector and descriptor extractor, numpy and the clock
are external. They enter the model as parameters:

- the frames read before the deadline, each one a failed read or the
  descriptors of the faces found in it;
- a distance function over descriptors;
- the encoding stored in each file.

Modules, in dependency order:

- `Wrappers` (`wrappers.dfy`): `Option`.
- `Text` (`text.dfy`): the Python string operations the core relies on.
  These are `startswith`, `endswith`, `split`, `replace` of every
  occurrence, `isdigit`, `int`, `str` and `strip` (with Python's
  whitespace set).
- `Seqs` (`sequences.dfy`): sub-sequences, `del s[i]`, `list.index`.
- `Wire` (`wire.dfy`): `struct.pack("i")` and the C `int` read by
  `recv`. Both are four bytes of two's complement in the host's native
  byte order. The model writes that order as little-endian, because the
  client and the daemon run on the same host and so agree on it.
- `Matching` (`matching.dfy`): the distance to the closest template. It
  also holds the two thresholds, 0.6 for the daemon and 0.4 for the
  preview.
- `TemplateStore` (`template_store.dfy`): the rules for template file
  names that the daemon and the window share. These are the selection
  by prefix and suffix, and the sequence-number allocation, both as
  written and corrected.
- `Session` (`session.dfy`): `authenticate_user`, written both as a
  function and as the imperative frame loop.
- `Daemon` (`daemon.dfy`): the body of the accept loop for one
  connection.
- `Client` (`client.dfy`): `main` of the PAM client, plus the
  end-to-end link with the daemon.
- `Enrollment` (`enrollment.dfy`): the window's state and its
  operations.

The window's central invariant is `Enrollment.Mirrors`:

- the two lists are aligned and without repeats;
- each listed file is one of the user's templates and holds the
  encoding beside it;
- every template of the user on disk is listed.

Loading establishes this invariant. Saving preserves it for user names
without `_`. Deleting a selection taken from the list preserves it.

Behaviours of the code worth knowing:

- **Prefix match.** Templates are chosen by a plain prefix match, so user
  `al` also loads `alice`'s files (`TemplateStore.PrefixMatchTakesOtherUsers`).
- **Number reuse.** Sequence numbers are reused once the newest file is
  deleted (`Enrollment.NumberReusedAfterDelete`).
- **Other users' numbers.** The window reads a number from every listed
  name, and the listing also holds other users' files that share the
  prefix. User `al` next to `alice_face_5.npy` therefore saves
  `al_face_6.npy` (`TemplateStore.PrefixUserNumbering`).
- **Camera release.** The camera is released only when it opened
  (`Session.Authenticate`).
- **User name.** The daemon reads `PAM_USER` and `USER` from its own
  environment, not from the login attempt (`Daemon.ResolveUser`).
- **Missing user name.** There is no user name when `PAM_USER` is unset
  or empty and `USER` is unset. If the template directory is then not
  empty, the lookup raises `TypeError` and the daemon process ends. No reply is sent (`Daemon.HandleConnection`,
  `DaemonCrashed`).
- **Threshold.** The daemon's threshold is 0.6. Only the enrollment
  preview uses 0.4.
- **Two template directories.** The daemon reads `face_data` next to its
  own script. The window reads `face_data` relative to the directory it
  is started from. They share templates, and
  `Enrollment.DaemonLoadsWindowEncodings` applies, only when the window
  is started from the daemon's directory.
- **Session length.** The clock is checked only before each camera
  read, so a slow read or a frame with many faces can carry the session
  past ten seconds.

## Model

| member | source | states |
|---|---|---|
| TemplateStore.SelectTemplates | pam-module-deamon.py:26-30 | the templates loaded are the listed names that start with the user name and end in `.npy`, in listing order, each as often as listed |
| TemplateStore.SelectedAreListedTemplates | main.py:111-115 | every name the window keeps is a listed name that passes the user-prefix and `.npy` test |
| TemplateStore.PrefixMatchTakesOtherUsers | pam-module-deamon.py:27 | the prefix test is not bounded at the user name: user `al` keeps `alice_face_1.npy` |
| TemplateStore.TemplateName | main.py:136 | a generated name `<user>_face_<n>.npy` passes the owner's own selection test |
| TemplateStore.HighestNumber | main.py:127-134 | the running maximum is at least every number read from the list |
| TemplateStore.HighestNumberRead | main.py:127-134 | the running maximum is 0 or a number actually read from one of the names |
| TemplateStore.ParseSeqNo | main.py:129-132 | a name with no `_` left once `.npy` is removed gives no number |
| TemplateStore.ParseSeqNoFields | main.py:129-132 | however the name without `.npy` is cut into `_`-free fields, a number is read exactly when there are at least three fields and the third is all digits, and it is that field's value |
| TemplateStore.NewTemplateName | main.py:127-136 | the loop yields a number above every number read from the list: 1 when none is read, otherwise one more than a number that was read; it is the running maximum over the whole list plus one, and the name carries it |
| TemplateStore.ParseTemplateName | main.py:129-136 | for a user name without `_`, splitting a generated name on `_` reads back the number it was made with |
| TemplateStore.NewNameFresh | main.py:127-136 | for a user name without `_`, the new name is not already in the list |
| TemplateStore.UnreadableNameIgnored | main.py:129-131 | a name without an all-digit third `_` field, inserted anywhere in the list, does not change the next number |
| TemplateStore.UnderscoreNameUnreadable | main.py:129-131 | for a user name with one `_`, no generated name can be read back: its third field is `face` |
| TemplateStore.UnderscoreUserRepeatsName | main.py:127-136 | for such a user, saving after `<user>_face_1.npy` produces `<user>_face_1.npy` again |
| TemplateStore.OwnSeqNoOfTemplateName | main.py:136 | the corrected reading gets back the number of every generated name, whatever the user name |
| TemplateStore.PrefixUserNumbering | main.py:127-136 | next to `alice_face_5.npy` and `al_face_1.npy`, user `al` gets 6 as written but 2 by the corrected rule |
| TemplateStore.OwnNameFresh | main.py:127-136 | the corrected next number is above every own number listed, and its name is not yet listed, for every user name |
| Text.Split | main.py:130 | `split('_')` gives at least one piece, and no piece contains `_` |
| Text.FieldsAreSplit | main.py:130 | a string has only one decomposition into `_`-free fields joined by `_`, and `split` returns it |
| Text.SplitJoin | main.py:130 | splitting on `_` undoes joining fields that contain no `_` |
| Text.JoinSplit | main.py:130 | joining the pieces of a split gives back the string |
| Text.RemoveAll | main.py:129 | `replace('.npy', '')` never lengthens the name and adds no character |
| Text.RemoveAllAbsent | main.py:129 | `replace('.npy', '')` leaves a name without `.` unchanged |
| Text.RemoveAllBoundary | main.py:129 | removing `.npy` everywhere works piecewise when the second piece starts with a character outside `.npy` |
| Text.Decimal | main.py:136 | `str(n)` is a non-empty digit string with no leading zero, and `int` of it is `n` |
| Text.Strip | pam-module-deamon.py:87 | `strip()` returns a piece of the text, no longer than it, with no whitespace at either end |
| Text.StripDecomposes | pam-module-deamon.py:87 | `strip()` leaves whitespace on both sides, and what it returns has no whitespace at either end |
| Text.StripSurrounded | pam-module-deamon.py:87 | stripping whitespace around a core with non-space ends gives the core |
| Wire.PackInt | pam-module-deamon.py:91-93 | `struct.pack("i", v)` is four bytes |
| Wire.UnpackInt | face_auth.c:35 | the four bytes read into an `int` decode to a 32-bit value |
| Wire.UnpackPack | pam-module-deamon.py:91-93 | the client reads back the value the daemon packed, for every 32-bit value |
| Wire.PackUnpack | face_auth.c:35 | every four-byte reply is the packing of the value the client reads |
| Matching.MinDistance | pam-module-deamon.py:54-55 | `min(distances)` is at most every template's distance and equal to one of them |
| Matching.AcceptsIffSomeClose | pam-module-deamon.py:54-55 | a minimum below the threshold means some template lies below it, and conversely |
| Session.FirstFaceFrom | pam-module-deamon.py:50-57 | the scan of one frame finds the first accepted face from a position, or shows that no later face is accepted |
| Session.FirstMatchFrom | pam-module-deamon.py:42-57 | the scan of the frames finds the first accepted face in examination order, or shows that none is accepted |
| Session.Authenticate | pam-module-deamon.py:32-60 | with no templates the camera is never touched; a camera that fails to open gives failure; otherwise it is released exactly once, the session succeeds exactly when some read frame has a face within 0.6, the first such face being the one reported, and it times out otherwise |
| Session.FirstMatchIs | pam-module-deamon.py:50-57 | an accepted face with none before it is the one the scan stops at |
| Session.RunSession | pam-module-deamon.py:37-60 | the nested loop with its early return computes the same run as the session function |
| Session.FailedReadIgnored | pam-module-deamon.py:43-45 | a failed read inserted anywhere leaves the decision unchanged |
| Session.LaterInputIgnored | pam-module-deamon.py:50-57 | the faces after the accepted one and all later frames can be replaced without changing the outcome |
| Daemon.LoadKnownFaces | pam-module-deamon.py:21-30 | no directory or an empty one gives no templates; a missing user name fails exactly when the directory lists a file; otherwise the loaded templates follow the selected names one for one |
| Daemon.ResolveUser | pam-module-deamon.py:88 | `PAM_USER` when set and non-empty, else `USER` when set, else no user, in both directions |
| Daemon.IsAuthRequest | pam-module-deamon.py:87 | a recognised request contains `faceauth`, and whitespace alone is never recognised |
| Daemon.AuthRequestIffCommand | pam-module-deamon.py:87 | a request, written as whitespace around a core, is recognised exactly when the core is `faceauth` |
| Daemon.StatusCode | pam-module-deamon.py:90-93 | the status is 0 exactly when authenticated and 1 otherwise |
| Daemon.HandleConnection | pam-module-deamon.py:84-95 | an unrecognised request gets no reply and no session; a recognised one gets a reply; the daemon dies exactly when there is no user name and the directory lists a file; a status reply comes exactly when the request is recognised and templates load, the session run is the one over the loaded templates, and the reply is four bytes decoding to 0 exactly when it authenticated, else 1 |
| Daemon.ReplyZeroIffFaceMatches | pam-module-deamon.py:84-93 | for a recognised request and a known user, the reply decodes to 0 exactly when the user has templates, the camera opened, and some face read before the deadline lies within 0.6 of a loaded template; otherwise to 1 |
| Daemon.NoTemplatesRefusedWithoutCamera | pam-module-deamon.py:33-35 | a user without a template file is refused with status 1 and the camera is never touched |
| Client.ExitStatus | face_auth.c:46 | the status a parent sees lies in 0..255 and differs from the returned value by a multiple of 256; it is 0 exactly when the value is |
| Client.RunClient | face_auth.c:10-48 | a failed socket or connect sends nothing and exits 1; otherwise exactly the request is sent, "recognised" is printed exactly when the reply is the packing of 0, and the exit status is the low eight bits of the value read |
| Client.ClientMatchesDaemon | face_auth.c:8-33 | the request is the eight bytes of `faceauth` with no terminator, the daemon recognises it, and both sides use `/tmp/face_auth` |
| Client.ExitFollowsSession | face_auth.c:35-46 | end to end, the client exits 0 and prints "recognised" exactly when the daemon's session authenticated, and exits 1 otherwise |
| Client.ExitStatusTruncates | face_auth.c:37-46 | a reply of 256 is reported as not recognised and still exits 0 |
| Enrollment.Load | main.py:107-115 | after loading, the file list is the user's selection from the listing, the encodings are aligned with it, and the window mirrors the directory |
| Enrollment.SaveEncoding | main.py:125-144 | saving names the file one past the highest number read from the list, appends the name and its encoding to the lists and writes the file, leaving other files alone; for a user name without `_` the name is fresh, no file is overwritten and a mirroring window keeps mirroring |
| Enrollment.SaveAsWrittenFresh | main.py:127-141 | for a user name without `_`, the name chosen as written is not listed and saving under it keeps the mirror |
| Enrollment.SaveEncodingCorrected | main.py:125-144 | with the corrected numbering the name is fresh and a mirroring window keeps mirroring for every user name |
| Enrollment.SaveKeepsMirror | main.py:139-141 | appending a fresh template of the user in lockstep, and writing it, keeps the lists aligned with the directory |
| Enrollment.SaveCurrentFace | main.py:183-197 | a save happens exactly in add mode with a face in view and a successful read; the window then leaves add mode for the same user, with the name numbered as written appended to the files and the capture to the encodings; the directory gains that file holding the capture and every other file keeps its contents; for a user name without `_` the name is new and the mirror is kept |
| Enrollment.NumberReusedAfterDelete | main.py:125-162 | for a user name without `_` whose window lists `<user>_face_1.npy` and `_2`, with `_2` on disk, a save would write `_3`; deleting `_2` through the window leaves `_1` listed and `_2` gone from disk, and a save then writes `_2` again |
| Enrollment.NextNumbers | main.py:127-136 | for a user name without `_`, the next number is 3 after `_1` and `_2`, and 2 after `_1` alone |
| Enrollment.DeleteLast | main.py:146-162 | selecting the second of two different listed files removes that file and its entry from both lists, and nothing else |
| Enrollment.DeleteEach | main.py:152-162 | on aligned lists, the loop stops with `ValueError` only for a selected name that has a file but is not listed, and then the files deleted so far are selected ones and every unselected file keeps its contents; when it finishes, user and mode are kept, the lists stay aligned, the remaining (file, encoding) entries are old entries in their old order, every entry of an unselected name keeps its count, each selected name with a file loses exactly one entry, the lists shrink by the number of such names, and exactly the selected files leave the directory, the others keeping their contents |
| Enrollment.DeleteStepInLockstep | main.py:157-162 | removing one file, then its entry at the same index from both lists, and continuing the loop keeps the deletion in lockstep |
| Enrollment.SkipStepInLockstep | main.py:156 | a selected name with no file is skipped without breaking the lockstep |
| Enrollment.SkipStepCounted | main.py:156 | a skipped name removes no entry, so the counts of the rest of the loop are the counts of the whole loop |
| Enrollment.DeleteStepCounted | main.py:157-162 | one deletion followed by the rest of the loop keeps the unselected entries, takes one entry per deleted name and shrinks the lists by their number |
| Enrollment.DeleteStepKeepsOthers | main.py:161-162 | deleting the entry of a selected name leaves the count of every (file, encoding) entry of an unselected name unchanged |
| Enrollment.DeleteStepCounts | main.py:157-162 | deleting the first entry of the file just removed takes one occurrence of that name, and the rest of the loop one per further deleted name |
| Enrollment.DeleteStepSize | main.py:157-162 | one deletion plus the deletions of the rest of the loop shrink the lists by the number of selected names that had a file |
| Enrollment.DeletedNamesStep | main.py:156-157 | the selected names that have a file are the first name, if it has one, plus those of the rest after its file is gone |
| Enrollment.EntriesRemoveAt | main.py:161-162 | deleting the same index from both lists deletes exactly that (file, encoding) entry |
| Enrollment.DeleteEachExact | main.py:152-162 | from a mirroring window, the selected files leave the directory and both lists; all other entries stay, in order; the directory is still mirrored |
| Enrollment.ExactSkipStep | main.py:156 | in a mirroring window a selected name without a file is not listed either, so skipping it keeps the deletion exact |
| Enrollment.ExactDeleteStep | main.py:157-162 | removing the first selected file and its entry from a mirroring window, then the rest exactly, deletes exactly the selection |
| Enrollment.RemoveAtDistinct | main.py:160-161 | without repeats, deleting at the found index removes exactly that name |
| Enrollment.DeleteKeepsMirror | main.py:157-162 | removing a file together with its entry in both lists keeps the window mirroring the directory |
| Enrollment.DeleteSelected | main.py:146-165 | an empty selection changes nothing; otherwise the loop's outcome: on `ValueError` unselected files are kept, on completion deletion in lockstep with one entry per deleted name from any aligned window, and exact deletion for a selection taken from the list |
| Enrollment.StartAdding | main.py:167-171 | add mode is entered from any mode, with the lists untouched |
| Enrollment.StartRecognition | main.py:173-181 | recognition is refused exactly when there are no encodings; otherwise only the mode changes |
| Enrollment.FaceLabel | main.py:210-238 | in recognition mode a face is labelled as the user exactly when some encoding lies within 0.4, and as unknown exactly when encodings exist and none does; add mode shows the hint; otherwise no label |
| Enrollment.RecognitionAfterDeletingAll | main.py:219 | deleting every template while recognising leaves recognition mode on, with no labels drawn |
| Enrollment.PreviewStricterThanDaemon | main.py:230 | a face the preview recognises is accepted by the daemon against the same encodings |
| Enrollment.DaemonLoadsWindowEncodings | pam-module-deamon.py:26-30 | for the same user and listing, the daemon loads exactly the encodings the window lists, in the same order |
| Seqs.SubsequenceDistinct | main.py:111-115 | keeping some entries of a listing without repeats keeps them without repeats |
| Seqs.RemoveAt | main.py:161-162 | `del s[i]` shortens the list by one, removes one copy of `s[i]` and shifts later entries down |
| Seqs.IndexOf | main.py:160 | `list.index` finds the first position holding the name |

## Left out

- Detaching from the terminal (`daemonize`) is not modelled. Neither is
  the socket setup, including stale-socket removal, bind, listen and the
  accept loop. These are process and OS plumbing, so each connection is
  modelled on its own.
- The daemon reads at most 1024 bytes with one `recv`. The model takes
  the received text as given.
- Decoding a request as UTF-8 is not modelled. An invalid request
  raises out of the accept loop; requests are modelled as decoded text.
- Camera capture, colour conversion, dlib detection, landmarks and
  descriptors are external. They come in as frames of descriptors, as
  the number of faces in view, and as the captured encoding.
- `np.linalg.norm` is a `Metric` parameter over reals. Floating-point
  rounding is not modelled.
- The ten-second deadline and `time.time()` are reduced to the finite
  sequence of frames read before the deadline.
- `np.load` and `np.save` become a map from file name to encoding.
  `os.listdir` becomes a listing of that map in an order the caller
  chooses.
- `getuser()` and the creation of the template directory are not
  modelled. The window's user is a parameter, and the directory is
  taken as it is after creation.
- Everything Qt is left out: widgets, message boxes, drawing, the timer,
  pixmaps, and the camera release in `closeEvent`. Warnings and
  information boxes show up only as the result of an operation.
- The order of `selectedItems()` is a parameter. A `ValueError` from
  `list.index` ends the operation as `NotListed` and leaves the window
  state undefined.
- Client.RunClient: requires a four-byte reply when connected. A short
  or failed `recv` leaves `response` uninitialised, which is undefined
  behaviour in C. The client's text output and the unreachable
  `exit(response)` are not modelled.
- Text.IsDigitChar: covers ASCII digits only. Python's `isdigit` also
  accepts other Unicode digits, for which `int` would raise or differ.
- Enrollment.SaveEncoding: promises a fresh name and a kept mirror only
  for user names without `_`. For other names the code can overwrite a
  template (see Findings). `Enrollment.SaveEncodingCorrected` keeps both
  promises for every user name.
- Enrollment.SaveCurrentFace: promises a new name and a kept mirror only
  for user names without `_`, for the same reason.
- TemplateStore.NewNameFresh: proved only for user names without `_`.
  The finding below shows that the property fails otherwise.

## Findings

| source | as written | input that shows it | evidently intended | confidence | as-written member | corrected member |
|---|---|---|---|---|---|---|
| main.py:129-136 | the sequence number is read as the third `_`-separated field of a name | user `a_b` with `a_b_face_1.npy` listed: the third field is `face`, so no number is read and the next name is `a_b_face_1.npy` again; saving overwrites the first template and lists the name twice | read the digits between `<user>_face_` and `.npy`, so that the new name is fresh for every user name | high; not executed | TemplateStore.UnderscoreUserRepeatsName | Enrollment.SaveEncodingCorrected |

=== FILE: client.dfy ===
/**
 * The PAM-side client `face_auth.c`: it connects to the daemon's socket,
 * sends the command, reads one C `int`, reports whether the face was
 * recognised and exits with the value it read.
 */
module Client {

  import opened Wire
  import opened Text
  import opened Session
  import Daemon

  /** `SOCKET_PATH` of the client */
  const SocketPath: string := "/tmp/face_auth"

  /** `send(sock, "faceauth", strlen("faceauth"), 0)`: the eight ASCII letters, no terminating zero. */
  const Request: seq<Byte> := [0x66, 0x61, 0x63, 0x65, 0x61, 0x75, 0x74, 0x68]

  /** `bytes.decode("utf-8")` on bytes below 0x80, where it is ASCII. */
  function AsciiText(bs: seq<Byte>): (s: string)
    requires forall i :: 0 <= i < |bs| ==> bs[i] < 0x80
    ensures |s| == |bs|
    ensures forall i :: 0 <= i < |bs| ==> s[i] as int == bs[i]
  {
    seq(|bs|, i requires 0 <= i < |bs| => bs[i] as char)
  }

  /** How far the client got: no socket, no connection, or connected and this many bytes came back. */
  datatype Connection = SocketFailed | ConnectFailed | Connected(reply: seq<Byte>)

  /** What the client did: the bytes it sent, whether it printed "recognised", and its exit status. */
  datatype ClientResult = ClientResult(sent: seq<Byte>, recognised: bool, exitStatus: int)

  /** The status a parent process sees after `return v` from `main`: the low eight bits of `v`. */
  function ExitStatus(v: int): (s: int)
    ensures 0 <= s < 256
    ensures 0 <= v < 256 ==> s == v
    ensures s == 0 <==> v % 256 == 0
    ensures (v - s) % 256 == 0
  {
    v % 256
  }

  /**
   * `main` of the client. A failed `socket` or `connect` returns 1
   * before anything is sent. Otherwise the request is sent, the reply
   * read as an `int`, "recognised" printed exactly when it is 0, and the
   * value returned as the exit status.
   */
  function RunClient(conn: Connection): (o: ClientResult)
    requires conn.Connected? ==> |conn.reply| == IntSize
    ensures !conn.Connected? ==> o == ClientResult([], false, 1)
    ensures conn.Connected? ==> o.sent == Request
    ensures conn.Connected? ==> (o.recognised <==> conn.reply == PackInt(0))
    ensures conn.Connected? && o.recognised ==> o.exitStatus == 0
    ensures conn.Connected? ==> o.exitStatus == ExitStatus(UnpackInt(conn.reply))
  {
    match conn
    case SocketFailed => ClientResult([], false, 1)
    case ConnectFailed => ClientResult([], false, 1)
    case Connected(reply) =>
      var response := UnpackInt(reply);
      PackUnpack(reply);
      UnpackPack(0);
      ClientResult(Request, response == 0, ExitStatus(response))
  }

  /**
   * The client and the daemon agree on the socket path, the request is
   * eight bytes with no zero byte, and the daemon recognises it.
   */
  lemma ClientMatchesDaemon()
    ensures SocketPath == Daemon.SocketPath
    ensures |Request| == 8 && 0 !in Request
    ensures Daemon.IsAuthRequest(AsciiText(Request))
  {
    RequestText();
    CommandRecognised();
  }

  lemma RequestText()
    ensures AsciiText(Request) == Daemon.Command
  {
    var t := AsciiText(Request);
    assert |t| == |Daemon.Command|;
    forall k | 0 <= k < |t|
      ensures t[k] == Daemon.Command[k]
    {
      assert t[k] as int == Request[k];
    }
  }

  lemma CommandRecognised()
    ensures Daemon.IsAuthRequest(Daemon.Command)
  {
    var c := Daemon.Command;
    assert !IsSpace(c[0]) && !IsSpace(c[|c| - 1]);
    assert AllSpace("");
    Daemon.AuthRequestIffCommand("", c, "");
    assert "" + c + "" == c;
  }

  /**
   * End to end: when the daemon answers the client's request, the client
   * exits with 0 and reports recognition exactly when the session
   * authenticated, and exits with 1 otherwise.
   */
  lemma ExitFollowsSession(env: map<string, string>, dir: Daemon.TemplateDir,
                           load: string -> Matching.Descriptor, camera: Camera, dist: Matching.Metric)
    requires Daemon.HandleConnection(AsciiText(Request), env, dir, load, camera, dist).reply.Status?
    ensures var h := Daemon.HandleConnection(AsciiText(Request), env, dir, load, camera, dist);
            var o := RunClient(Connected(h.reply.bytes));
            && o.exitStatus == (if Authenticated(h.run.value) then 0 else 1)
            && (o.recognised <==> Authenticated(h.run.value))
  {
    var h := Daemon.HandleConnection(AsciiText(Request), env, dir, load, camera, dist);
    PackUnpack(h.reply.bytes);
  }

  /**
   * Only 0 is reported as recognised, but the exit status keeps just the
   * low eight bits: a reply of 256, which the daemon never sends, would
   * print "not recognised" and still exit with 0.
   */
  lemma ExitStatusTruncates()
    ensures var o := RunClient(Connected(PackInt(256)));
            !o.recognised && o.exitStatus == 0
  {
    UnpackPack(256);
    UnpackPack(0);
    assert PackInt(256) != PackInt(0) by {
      assert PackInt(256)[1] == 1;
    }
  }
}

=== FILE: daemon.dfy ===
/**
 * The daemon's handling of one connection: the template lookup of
 * `load_known_faces`, the command test, the choice of user name from the
 * daemon's own environment, and the four-byte reply. Socket set-up, the
 * accept loop and detaching from the terminal are not modelled.
 */
module Daemon {

  import opened Wrappers
  import opened Text
  import opened Wire
  import opened Matching
  import opened TemplateStore
  import opened Session

  /** `os.path.join("/tmp", "face_auth")` */
  const SocketPath: string := "/tmp" + "/" + "face_auth"

  const Command: string := "faceauth"

  /** The template directory: absent, or present with this listing in `os.listdir` order. */
  datatype TemplateDir = Absent | Present(listing: seq<string>)

  /**
   * What `load_known_faces` produced: the templates, or the `TypeError`
   * raised by `name.startswith(None)` when no user name was found.
   */
  datatype Loaded = Templates(faces: seq<Descriptor>) | NoUserName

  /**
   * `load_known_faces(username)`, with `load` standing for `np.load` of
   * one file: an absent directory means no templates; otherwise the
   * user's files in listing order, each loaded. A missing user name only
   * fails once there is a listed name to test it against.
   */
  function LoadKnownFaces(user: Option<string>, dir: TemplateDir, load: string -> Descriptor): (r: Loaded)
    ensures dir.Absent? ==> r == Templates([])
    ensures dir.Present? && |dir.listing| == 0 ==> r == Templates([])
    ensures r.NoUserName? <==> user.None? && dir.Present? && |dir.listing| > 0
    ensures user.Some? && dir.Present? ==>
              var names := SelectTemplates(user.value, dir.listing);
              && r.Templates?
              && |r.faces| == |names|
              && forall i :: 0 <= i < |names| ==> r.faces[i] == load(names[i])
  {
    match dir
    case Absent => Templates([])
    case Present(listing) =>
      match user
      case None => if |listing| == 0 then Templates([]) else NoUserName
      case Some(u) =>
        var names := SelectTemplates(u, listing);
        Templates(seq(|names|, i requires 0 <= i < |names| => load(names[i])))
  }

  /**
   * `os.getenv("PAM_USER") or os.getenv("USER")`: `PAM_USER` when it is
   * set and non-empty, else `USER` when it is set (even if empty), else
   * nothing.
   */
  function ResolveUser(env: map<string, string>): (r: Option<string>)
    ensures "PAM_USER" in env && env["PAM_USER"] != "" ==> r == Some(env["PAM_USER"])
    ensures r.Some? ==> ("PAM_USER" in env && r.value == env["PAM_USER"] != "")
                        || ("USER" in env && r.value == env["USER"])
    ensures r.None? <==> ("PAM_USER" !in env || env["PAM_USER"] == "") && "USER" !in env
  {
    if "PAM_USER" in env && env["PAM_USER"] != "" then Some(env["PAM_USER"])
    else if "USER" in env then Some(env["USER"])
    else None
  }

  /** `data and data.decode("utf-8").strip() == "faceauth"`, over the decoded text. */
  predicate IsAuthRequest(data: string)
    ensures IsAuthRequest(data) ==> |data| >= |Command|
    ensures IsAuthRequest(data) ==> exists i :: OccursAt(Command, data, i)
    ensures AllSpace(data) ==> !IsAuthRequest(data)
  {
    assert AllSpace(data) ==> Strip(data) == "" by {
      if AllSpace(data) { StripOfSpace(data); }
    }
    |data| > 0 && Strip(data) == Command
  }

  /**
   * Written as whitespace, a core without whitespace at its ends, and
   * whitespace (every request has that shape), a request is recognised
   * exactly when the core is the command.
   */
  lemma AuthRequestIffCommand(pre: string, core: string, post: string)
    requires AllSpace(pre) && AllSpace(post)
    requires |core| == 0 || (!IsSpace(core[0]) && !IsSpace(core[|core| - 1]))
    ensures IsAuthRequest(pre + core + post) <==> core == Command
  {
    if |core| > 0 {
      StripSurrounded(pre, core, post);
    } else {
      assert pre + core + post == pre + post;
      assert AllSpace(pre + post);
      StripOfSpace(pre + post);
    }
  }

  /** The status the daemon packs: 0 for authenticated, 1 otherwise. */
  function StatusCode(authenticated: bool): (c: int)
    ensures IsInt32(c)
    ensures c == 0 <==> authenticated
    ensures c == 0 || c == 1
  {
    if authenticated then 0 else 1
  }

  /** What the peer of a connection gets. */
  datatype Reply =
    | NoReply                   // unrecognised request: the connection is closed without a word
    | Status(bytes: seq<Byte>)  // `struct.pack("i", status)`
    | DaemonCrashed             // the lookup raised; the daemon process ends

  /** One connection: what was sent back, and the session that ran for it, if any. */
  datatype Handled = Handled(reply: Reply, run: Option<Run>)

  /**
   * The body of the accept loop for one connection. `data` is the decoded
   * request, `env` the daemon's own environment, `load` stands for
   * `np.load`, `camera` for what the video source delivers, `dist` for
   * the Euclidean distance.
   */
  function HandleConnection(data: string, env: map<string, string>, dir: TemplateDir,
                            load: string -> Descriptor, camera: Camera, dist: Metric): (h: Handled)
    ensures !IsAuthRequest(data) ==> h == Handled(NoReply, None)
    ensures IsAuthRequest(data) ==> !h.reply.NoReply?
    ensures h.reply.DaemonCrashed? <==>
              IsAuthRequest(data) && ResolveUser(env).None? && dir.Present? && |dir.listing| > 0
    ensures h.reply.Status? <==> IsAuthRequest(data) && LoadKnownFaces(ResolveUser(env), dir, load).Templates?
    ensures h.reply.Status? ==>
              && h.run == Some(Authenticate(LoadKnownFaces(ResolveUser(env), dir, load).faces, camera, dist))
              && |h.reply.bytes| == IntSize
              && UnpackInt(h.reply.bytes) == (if Authenticated(h.run.value) then 0 else 1)
  {
    if !IsAuthRequest(data) then Handled(NoReply, None)
    else
      match LoadKnownFaces(ResolveUser(env), dir, load)
      case NoUserName => Handled(DaemonCrashed, None)
      case Templates(known) =>
        var run := Authenticate(known, camera, dist);
        var code := StatusCode(Authenticated(run));
        UnpackPack(code);
        Handled(Status(PackInt(code)), Some(run))
  }

  /**
   * A user with no template file (or no directory at all) is refused
   * with status 1, and the camera is never touched.
   */
  lemma NoTemplatesRefusedWithoutCamera(data: string, env: map<string, string>, dir: TemplateDir,
                                        load: string -> Descriptor, camera: Camera, dist: Metric)
    requires IsAuthRequest(data)
    requires ResolveUser(env).Some?
    requires dir.Present? ==> forall i :: 0 <= i < |dir.listing|
                                        ==> !IsTemplateOf(ResolveUser(env).value, dir.listing[i])
    ensures var h := HandleConnection(data, env, dir, load, camera, dist);
            && h.reply == Status(PackInt(1))
            && h.run.Some? && !h.run.value.cameraUsed
  {
    if dir.Present? {
      SelectedAreListedTemplates(ResolveUser(env).value, dir.listing);
    }
  }

  /**
   * The daemon's promise: for a recognised request and a resolved user,
   * the reply decodes to 0 exactly when the user has templates, the
   * camera opened, and some face in a frame read before the deadline lies
   * within 0.6 of one of the user's loaded templates; otherwise it is 1.
   */
  lemma ReplyZeroIffFaceMatches(data: string, env: map<string, string>, dir: TemplateDir,
                                load: string -> Descriptor, camera: Camera, dist: Metric)
    requires IsAuthRequest(data)
    requires ResolveUser(env).Some?
    ensures var h := HandleConnection(data, env, dir, load, camera, dist);
            var names := if dir.Present? then SelectTemplates(ResolveUser(env).value, dir.listing) else [];
            var faces := seq(|names|, i requires 0 <= i < |names| => load(names[i]));
            && h.reply.Status?
            && (UnpackInt(h.reply.bytes) == 0 <==>
                  |names| > 0 && camera.Opened? && exists i, j :: MatchAt(faces, camera.frames, dist, i, j))
            && (UnpackInt(h.reply.bytes) == 0 || UnpackInt(h.reply.bytes) == 1)
  {
    var names := if dir.Present? then SelectTemplates(ResolveUser(env).value, dir.listing) else [];
    var faces := seq(|names|, i requires 0 <= i < |names| => load(names[i]));
    var loaded := LoadKnownFaces(ResolveUser(env), dir, load);
    assert loaded.Templates? && loaded.faces == faces;
  }
}

=== FILE: enrollment.dfy ===
/**
 * The enrollment window of `main.py` as state transitions: the user's
 * template files and their encodings as the window lists them, the
 * template directory they mirror, and the mode of the live preview.
 * Widgets, the timer, drawing and the camera are not modelled; what the
 * camera and the face recogniser deliver comes in as parameters.
 */
module Enrollment {

  import opened Wrappers
  import opened Seqs
  import opened Matching
  import opened TemplateStore
  import Session
  import Daemon

  /** `self.mode`: `None`, `'add'` or `'recognize'`. */
  datatype Mode = Idle | Adding | Recognizing

  /** The template directory: each file name with the encoding stored in it. */
  type Disk = map<string, Descriptor>

  /** The window: the logged-in user, `known_face_files`, `known_face_encodings`, and the mode. */
  datatype App = App(user: string, files: seq<string>, encodings: seq<Descriptor>, mode: Mode)

  /** `listing` is one `os.listdir` of `disk`: every file exactly once, in some order. */
  predicate IsListing(listing: seq<string>, disk: Disk) {
    && Distinct(listing)
    && (forall i :: 0 <= i < |listing| ==> listing[i] in disk)
    && (forall n :: n in disk ==> n in listing)
  }

  /**
   * The window's lists mirror the directory: aligned, without repeats,
   * each listed file one of the user's templates holding the encoding
   * beside it, and every template of the user on disk listed.
   */
  predicate Mirrors(app: App, disk: Disk) {
    && |app.files| == |app.encodings|
    && Distinct(app.files)
    && (forall i :: 0 <= i < |app.files| ==>
          && app.files[i] in disk
          && disk[app.files[i]] == app.encodings[i]
          && IsTemplateOf(app.user, app.files[i]))
    && (forall n :: n in disk && IsTemplateOf(app.user, n) ==> n in app.files)
  }

  /**
   * `load_known_faces` of the window, run on start-up after the
   * directory was created if missing: the user's files in listing order,
   * each with its stored encoding, and no mode yet.
   */
  function Load(user: string, listing: seq<string>, disk: Disk): (app: App)
    requires IsListing(listing, disk)
    ensures app.user == user && app.mode == Idle
    ensures app.files == SelectTemplates(user, listing)
    ensures Mirrors(app, disk)
  {
    var files := SelectTemplates(user, listing);
    SelectedAreListedTemplates(user, listing);
    SubsequenceDistinct(files, listing);
    var app := App(user, files, seq(|files|, i requires 0 <= i < |files| => disk[files[i]]), Idle);
    assert forall n :: n in disk && IsTemplateOf(user, n) ==> n in files by {
      forall n | n in disk && IsTemplateOf(user, n)
        ensures n in files
      {
        assert multiset(listing)[n] > 0;
      }
    }
    app
  }

  // ---------------------------------------------------------------------
  // Saving
  // ---------------------------------------------------------------------

  /** A save: the new window state, the directory after `np.save`, and the new file's name. */
  datatype Saved = Saved(app: App, disk: Disk, name: string)

  /**
   * `save_face_encoding` as written: the new file is numbered one past the
   * largest number read from any listed name, written with the encoding,
   * and appended to both lists. For a user name without '_' the new name
   * is fresh, and a window that mirrors its directory still does so
   * afterwards.
   */
  function SaveEncoding(app: App, disk: Disk, enc: Descriptor): (s: Saved)
    ensures s.name == TemplateName(app.user, HighestNumber(app.files, ParseSeqNo) + 1)
    ensures '_' !in app.user ==> s.name !in app.files
    ensures s.app == app.(files := app.files + [s.name], encodings := app.encodings + [enc])
    ensures s.disk.Keys == disk.Keys + {s.name} && s.disk[s.name] == enc
    ensures forall n :: n in disk && n != s.name ==> s.disk[n] == disk[n]
    ensures Mirrors(app, disk) && '_' !in app.user ==> s.name !in disk && Mirrors(s.app, s.disk)
  {
    var name := TemplateName(app.user, HighestNumber(app.files, ParseSeqNo) + 1);
    SaveAsWrittenFresh(app, disk, enc, name);
    Saved(app.(files := app.files + [name], encodings := app.encodings + [enc]), disk[name := enc], name)
  }

  lemma SaveAsWrittenFresh(app: App, disk: Disk, enc: Descriptor, name: string)
    requires name == TemplateName(app.user, HighestNumber(app.files, ParseSeqNo) + 1)
    ensures '_' !in app.user ==> name !in app.files
    ensures Mirrors(app, disk) && '_' !in app.user ==>
              name !in disk && Mirrors(app.(files := app.files + [name], encodings := app.encodings + [enc]), disk[name := enc])
  {
    if '_' !in app.user {
      NewNameFresh(app.user, app.files);
      if Mirrors(app, disk) {
        SaveKeepsMirror(app, disk, enc, name);
      }
    }
  }

  /**
   * `save_face_encoding` numbered by the corrected rule, which reads only
   * the user's own numbers: the new name is fresh for every user name,
   * '_' included, and a mirroring window stays mirroring.
   */
  function SaveEncodingCorrected(app: App, disk: Disk, enc: Descriptor): (s: Saved)
    ensures s.name == TemplateName(app.user, NextOwnSeqNo(app.user, app.files))
    ensures s.name !in app.files
    ensures s.app == app.(files := app.files + [s.name], encodings := app.encodings + [enc])
    ensures s.disk.Keys == disk.Keys + {s.name} && s.disk[s.name] == enc
    ensures forall n :: n in disk && n != s.name ==> s.disk[n] == disk[n]
    ensures Mirrors(app, disk) ==> s.name !in disk && Mirrors(s.app, s.disk)
  {
    var name := TemplateName(app.user, NextOwnSeqNo(app.user, app.files));
    OwnNameFresh(app.user, app.files);
    var s := Saved(app.(files := app.files + [name], encodings := app.encodings + [enc]), disk[name := enc], name);
    assert Mirrors(app, disk) ==> name !in disk && Mirrors(s.app, s.disk) by {
      if Mirrors(app, disk) {
        SaveKeepsMirror(app, disk, enc, name);
      }
    }
    s
  }

  /** Appending a fresh template of the user, written to disk, keeps the mirror. */
  lemma SaveKeepsMirror(app: App, disk: Disk, enc: Descriptor, name: string)
    requires Mirrors(app, disk)
    requires name !in app.files && IsTemplateOf(app.user, name)
    ensures name !in disk
    ensures Mirrors(app.(files := app.files + [name], encodings := app.encodings + [enc]), disk[name := enc])
  {
    var files := app.files + [name];
    var d := disk[name := enc];
    forall i, j | 0 <= i < j < |files|
      ensures files[i] != files[j]
    {
      if j == |app.files| {
        assert files[i] == app.files[i];
      }
    }
    forall n | n in d && IsTemplateOf(app.user, n)
      ensures n in files
    {
      if n != name {
        assert n in app.files;
      }
    }
  }

  /**
   * `save_current_face`: it acts only in add mode with a face in view. A
   * failed camera read changes nothing; otherwise the captured encoding
   * is saved and the window leaves add mode.
   */
  function SaveCurrentFace(app: App, disk: Disk, facesInView: nat, capture: Option<Descriptor>): (r: Option<Saved>)
    ensures r.Some? <==> app.mode == Adding && facesInView > 0 && capture.Some?
    ensures r.Some? ==> r.value.app.mode == Idle
                        && r.value.app.user == app.user
                        && r.value.app.files == app.files + [r.value.name]
                        && r.value.app.encodings == app.encodings + [capture.value]
                        && r.value.name == TemplateName(app.user, HighestNumber(app.files, ParseSeqNo) + 1)
    ensures r.Some? ==> r.value.disk.Keys == disk.Keys + {r.value.name}
                        && r.value.disk[r.value.name] == capture.value
                        && forall n :: n in disk && n != r.value.name ==> r.value.disk[n] == disk[n]
    ensures r.Some? && '_' !in app.user ==> r.value.name !in app.files
    ensures r.Some? && Mirrors(app, disk) && '_' !in app.user ==> Mirrors(r.value.app, r.value.disk)
  {
    if app.mode == Adding && facesInView > 0 && capture.Some? then
      var s := SaveEncoding(app, disk, capture.value);
      Some(s.(app := s.app.(mode := Idle)))
    else None
  }

  /**
   * A number is not reserved: with `<user>_face_1.npy` and
   * `<user>_face_2.npy` listed the next save would take 3, but once the
   * second is deleted the next save writes `<user>_face_2.npy` again.
   */
  lemma NumberReusedAfterDelete(app: App, disk: Disk, enc: Descriptor)
    requires '_' !in app.user && |app.encodings| == 2
    requires app.files == [TemplateName(app.user, 1), TemplateName(app.user, 2)]
    requires app.files[1] in disk
    ensures SaveEncoding(app, disk, enc).name == TemplateName(app.user, 3)
    ensures var d := DeleteSelected(app, disk, [app.files[1]]);
            && d.Deleted? && d.app.files == [app.files[0]] && app.files[1] !in d.disk
            && SaveEncoding(d.app, d.disk, enc).name == app.files[1]
  {
    var second := TemplateName(app.user, 2);
    NextNumbers(app.user);
    DeleteLast(app, disk);
    SaveNameFrom(app, disk, enc, TemplateName(app.user, 3));
    SaveNameFrom(app.(files := [app.files[0]], encodings := [app.encodings[0]]), disk - {second}, enc, second);
  }

  /** A save writes the name one past the highest number read from the list. */
  lemma SaveNameFrom(app: App, disk: Disk, enc: Descriptor, next: string)
    requires next == TemplateName(app.user, HighestNumber(app.files, ParseSeqNo) + 1)
    ensures SaveEncoding(app, disk, enc).name == next
  {
  }

  lemma NextNumbers(user: string)
    requires '_' !in user
    ensures var first := TemplateName(user, 1);
            var second := TemplateName(user, 2);
            && HighestNumber([first, second], ParseSeqNo) + 1 == 3
            && HighestNumber([first], ParseSeqNo) + 1 == 2
            && first != second
  {
    var first := TemplateName(user, 1);
    var second := TemplateName(user, 2);
    ParseTemplateName(user, 1);
    ParseTemplateName(user, 2);
    HighestOfTwo(first, second, ParseSeqNo);
    assert [first][..0] == [];
  }

  /** Selecting the second of two different listed files deletes just that one. */
  lemma DeleteLast(app: App, disk: Disk)
    requires |app.files| == |app.encodings| == 2 && app.files[0] != app.files[1]
    requires app.files[1] in disk
    ensures DeleteSelected(app, disk, [app.files[1]])
            == Deleted(app.(files := [app.files[0]], encodings := [app.encodings[0]]), disk - {app.files[1]})
  {
    var name := app.files[1];
    assert IndexOf(app.files, name) == 1 by {
      var i := IndexOf(app.files, name);
      assert app.files[i] == name;
    }
    var next := app.(files := RemoveAt(app.files, 1), encodings := RemoveAt(app.encodings, 1));
    assert next.files == [app.files[0]] && next.encodings == [app.encodings[0]];
    assert name in app.files;
    assert [name][0] == name && [name][1..] == [];
    assert DeleteEach(next, disk - {name}, []) == Deleted(next, disk - {name});
    assert DeleteEach(app, disk, [name]) == DeleteEach(next, disk - {name}, []);
  }

  // ---------------------------------------------------------------------
  // Deleting
  // ---------------------------------------------------------------------

  /** What `delete_selected_face` ends with. */
  datatype Deletion =
    | NothingSelected                // a warning; nothing changes
    | Deleted(app: App, disk: Disk)  // the loop finished
    | NotListed(disk: Disk)          // a file was removed that the list lacks: `list.index` raised `ValueError`

  /** Every selected name still on disk is one the window lists. */
  predicate SelectionListed(app: App, disk: Disk, selected: seq<string>) {
    forall n :: n in selected && n in disk ==> n in app.files
  }

  /** The window's entries: each listed file paired with the encoding beside it. */
  function Entries(app: App): (e: seq<(string, Descriptor)>)
    requires |app.files| == |app.encodings|
    ensures |e| == |app.files|
    ensures forall i :: 0 <= i < |e| ==> e[i] == (app.files[i], app.encodings[i])
  {
    seq(|app.files|, i requires 0 <= i < |app.files| => (app.files[i], app.encodings[i]))
  }

  /** The selected names that have a file: the ones the loop deletes. */
  function DeletedNames(selected: seq<string>, disk: Disk): set<string> {
    set n | n in selected && n in disk
  }

  /**
   * When the loop stops at a name that has a file but is not listed, the
   * files removed before it are among the selected ones and every file
   * not selected is still there with its contents.
   */
  predicate NotListedDisk(disk: Disk, selected: seq<string>, afterDisk: Disk)
  {
    && afterDisk.Keys <= disk.Keys
    && (forall n :: n in afterDisk ==> afterDisk[n] == disk[n])
    && (forall n :: n in disk && n !in selected ==> n in afterDisk)
  }

  /**
   * The promise of a deletion from any window with aligned lists: user
   * and mode are kept, the lists stay aligned, the entries left are some
   * of the old entries in their old order (a file never loses its
   * encoding, and no name is new), and exactly the selected files leave
   * the directory, the others keeping their contents.
   */
  predicate DeletedInLockstep(app: App, disk: Disk, selected: seq<string>, after: App, afterDisk: Disk)
    requires |app.files| == |app.encodings|
  {
    && after.user == app.user && after.mode == app.mode
    && |after.files| == |after.encodings|
    && IsSubsequence(Entries(after), Entries(app))
    && (forall n :: n in after.files ==> n in app.files)
    && afterDisk.Keys == disk.Keys - (set n | n in selected)
    && (forall n :: n in afterDisk ==> afterDisk[n] == disk[n])
  }

  /**
   * What a deletion removes from the lists: every entry whose name was
   * not selected stays, each selected name that has a file loses exactly
   * one entry, and the lists shrink by the number of such names.
   */
  predicate DeletedCounted(app: App, disk: Disk, selected: seq<string>, after: App)
    requires |app.files| == |app.encodings| && |after.files| == |after.encodings|
  {
    && (forall e :: e in Entries(app) && e.0 !in selected ==> multiset(Entries(after))[e] == multiset(Entries(app))[e])
    && (forall n :: n in app.files ==>
          multiset(after.files)[n] == multiset(app.files)[n] - (if n in DeletedNames(selected, disk) then 1 else 0))
    && |after.files| == |app.files| - |DeletedNames(selected, disk)|
  }

  /** Deleting at one index from both lists deletes that entry. */
  lemma EntriesRemoveAt(app: App, i: nat)
    requires |app.files| == |app.encodings| && i < |app.files|
    ensures var next := app.(files := RemoveAt(app.files, i), encodings := RemoveAt(app.encodings, i));
            Entries(next) == RemoveAt(Entries(app), i)
  {
  }

  /** The names of a non-empty selection: its first name and those of the rest. */
  lemma SelectedNames(selected: seq<string>)
    requires |selected| > 0
    ensures (set n | n in selected) == {selected[0]} + (set n | n in selected[1..])
    ensures forall n :: n != selected[0] ==> (n in selected <==> n in selected[1..])
  {
    assert selected == [selected[0]] + selected[1..];
  }

  /** One deletion step followed by the rest of the loop stays in lockstep. */
  lemma DeleteStepInLockstep(app: App, disk: Disk, selected: seq<string>, i: nat, after: App, afterDisk: Disk)
    requires |app.files| == |app.encodings| && |selected| > 0
    requires i < |app.files| && selected[0] in disk
    requires var next := app.(files := RemoveAt(app.files, i), encodings := RemoveAt(app.encodings, i));
             DeletedInLockstep(next, disk - {selected[0]}, selected[1..], after, afterDisk)
    ensures DeletedInLockstep(app, disk, selected, after, afterDisk)
  {
    var next := app.(files := RemoveAt(app.files, i), encodings := RemoveAt(app.encodings, i));
    EntriesRemoveAt(app, i);
    SubsequenceTransitive(Entries(after), Entries(next), Entries(app));
    SelectedNames(selected);
    assert forall n :: n in next.files ==> n in app.files;
  }

  /** One deletion step followed by the rest of the loop removes what the whole loop counts. */
  lemma DeleteStepCounted(app: App, disk: Disk, selected: seq<string>, i: nat, after: App)
    requires |app.files| == |app.encodings| && |after.files| == |after.encodings| && |selected| > 0
    requires i < |app.files| && app.files[i] == selected[0] && selected[0] in disk
    requires var next := app.(files := RemoveAt(app.files, i), encodings := RemoveAt(app.encodings, i));
             && DeletedCounted(next, disk - {selected[0]}, selected[1..], after)
             && (forall n :: n in after.files ==> n in next.files)
    ensures DeletedCounted(app, disk, selected, after)
  {
    DeleteStepKeepsOthers(app, selected, i, after);
    DeleteStepCounts(app, disk, selected, i, after);
    DeleteStepSize(app, disk, selected, i, after);
  }

  /** After one deletion, the entries of names not selected are still all there. */
  lemma DeleteStepKeepsOthers(app: App, selected: seq<string>, i: nat, after: App)
    requires |app.files| == |app.encodings| && |selected| > 0
    requires i < |app.files| && app.files[i] == selected[0]
    requires var next := app.(files := RemoveAt(app.files, i), encodings := RemoveAt(app.encodings, i));
             && |after.files| == |after.encodings|
             && forall e :: e in Entries(next) && e.0 !in selected[1..] ==> multiset(Entries(after))[e] == multiset(Entries(next))[e]
    ensures forall e :: e in Entries(app) && e.0 !in selected ==> multiset(Entries(after))[e] == multiset(Entries(app))[e]
  {
    var next := app.(files := RemoveAt(app.files, i), encodings := RemoveAt(app.encodings, i));
    EntriesRemoveAt(app, i);
    var entries := Entries(app);
    assert multiset(Entries(next)) == multiset(entries) - multiset{entries[i]};
    forall e | e in entries && e.0 !in selected
      ensures multiset(Entries(after))[e] == multiset(entries)[e]
    {
      assert e.0 !in selected[1..] by {
        SelectedNames(selected);
      }
      assert e != entries[i];
      assert multiset(Entries(next))[e] == multiset(entries)[e];
      assert e in Entries(next) by {
        assert e in multiset(Entries(next));
      }
    }
  }

  /** After one deletion, each name has lost one entry exactly when it is among the names deleted. */
  lemma DeleteStepCounts(app: App, disk: Disk, selected: seq<string>, i: nat, after: App)
    requires |app.files| == |app.encodings| && |selected| > 0
    requires i < |app.files| && app.files[i] == selected[0] && selected[0] in disk
    requires var files := RemoveAt(app.files, i);
             var names := DeletedNames(selected[1..], disk - {selected[0]});
             && (forall n :: n in files ==>
                   multiset(after.files)[n] == multiset(files)[n] - (if n in names then 1 else 0))
             && (forall n :: n in after.files ==> n in files)
    ensures forall n :: n in app.files ==>
              multiset(after.files)[n] == multiset(app.files)[n] - (if n in DeletedNames(selected, disk) then 1 else 0)
  {
    var name := selected[0];
    var files := RemoveAt(app.files, i);
    var names := DeletedNames(selected[1..], disk - {name});
    assert multiset(files) == multiset(app.files) - multiset{name};
    DeletedNamesStep(selected, disk);
    forall n | n in app.files
      ensures multiset(after.files)[n] == multiset(app.files)[n] - (if n in DeletedNames(selected, disk) then 1 else 0)
    {
      if n == name {
        if n !in files {
          assert n !in after.files;
        }
      } else {
        assert n in multiset(files);
      }
    }
  }

  /** After one deletion, the lists have shrunk by the number of names deleted. */
  lemma DeleteStepSize(app: App, disk: Disk, selected: seq<string>, i: nat, after: App)
    requires |app.files| == |app.encodings| && |selected| > 0
    requires i < |app.files| && selected[0] in disk
    requires |after.files| == |app.files| - 1 - |DeletedNames(selected[1..], disk - {selected[0]})|
    ensures |after.files| == |app.files| - |DeletedNames(selected, disk)|
  {
    DeletedNamesStep(selected, disk);
  }

  /** The names a selection deletes: its first name if it has a file, and those the rest deletes after it. */
  lemma DeletedNamesStep(selected: seq<string>, disk: Disk)
    requires |selected| > 0
    ensures selected[0] in disk ==>
              && DeletedNames(selected, disk) == DeletedNames(selected[1..], disk - {selected[0]}) + {selected[0]}
              && selected[0] !in DeletedNames(selected[1..], disk - {selected[0]})
              && |DeletedNames(selected, disk)| == |DeletedNames(selected[1..], disk - {selected[0]})| + 1
    ensures selected[0] !in disk ==> DeletedNames(selected, disk) == DeletedNames(selected[1..], disk)
  {
    SelectedNames(selected);
  }

  /** A selected name without a file is skipped, and the rest of the loop stays in lockstep. */
  lemma SkipStepInLockstep(app: App, disk: Disk, selected: seq<string>, after: App, afterDisk: Disk)
    requires |app.files| == |app.encodings| && |selected| > 0
    requires selected[0] !in disk
    requires DeletedInLockstep(app, disk, selected[1..], after, afterDisk)
    ensures DeletedInLockstep(app, disk, selected, after, afterDisk)
  {
    SelectedNames(selected);
  }

  /** A selected name without a file removes nothing from the lists. */
  lemma SkipStepCounted(app: App, disk: Disk, selected: seq<string>, after: App)
    requires |app.files| == |app.encodings| && |after.files| == |after.encodings| && |selected| > 0
    requires selected[0] !in disk
    requires DeletedCounted(app, disk, selected[1..], after)
    ensures DeletedCounted(app, disk, selected, after)
  {
    SelectedNames(selected);
    DeletedNamesStep(selected, disk);
    forall e | e in Entries(app) && e.0 !in selected
      ensures multiset(Entries(after))[e] == multiset(Entries(app))[e]
    {
      assert e.0 !in selected[1..];
    }
  }

  /**
   * The promise of a deletion from a mirroring window: the selected files
   * are gone from the directory and from the lists, everything else is
   * kept in order, and the window still mirrors the directory.
   */
  predicate DeletedExactly(app: App, disk: Disk, selected: seq<string>, r: Deletion) {
    && r.Deleted?
    && r.app.user == app.user && r.app.mode == app.mode
    && Mirrors(r.app, r.disk)
    && IsSubsequence(r.app.files, app.files)
    && (forall n :: n in r.app.files ==> n in app.files && n !in selected)
    && (forall n :: n in app.files && n !in selected ==> n in r.app.files)
    && r.disk.Keys == disk.Keys - (set n | n in selected)
    && (forall n :: n in r.disk ==> r.disk[n] == disk[n])
  }

  /**
   * The loop of `delete_selected_face` over the selected names, in order:
   * a name without a file is skipped; otherwise the file is removed and,
   * when the list has the name, its first entry and the encoding beside
   * it are dropped. The window fills both lists together, so they have
   * the same length and `del` on the encodings finds its index.
   */
  function DeleteEach(app: App, disk: Disk, selected: seq<string>): (r: Deletion)
    requires |app.files| == |app.encodings|
    ensures !r.NothingSelected?
    ensures r.NotListed? ==> exists k :: 0 <= k < |selected| && selected[k] in disk && selected[k] !in app.files
    ensures r.NotListed? ==> NotListedDisk(disk, selected, r.disk)
    ensures r.Deleted? ==> DeletedInLockstep(app, disk, selected, r.app, r.disk)
    ensures r.Deleted? ==> DeletedCounted(app, disk, selected, r.app)
    decreases |selected|
  {
    if |selected| == 0 then
      SubsequenceReflexive(Entries(app));
      Deleted(app, disk)
    else
      var name := selected[0];
      if name !in disk then
        var r := DeleteEach(app, disk, selected[1..]);
        assert r.NotListed? ==> exists k :: 0 <= k < |selected| && selected[k] in disk && selected[k] !in app.files
        by {
          if r.NotListed? {
            var k :| 0 <= k < |selected[1..]| && selected[1..][k] in disk && selected[1..][k] !in app.files;
            assert selected[k + 1] == selected[1..][k];
          }
        }
        assert r.Deleted? ==> DeletedInLockstep(app, disk, selected, r.app, r.disk) by {
          if r.Deleted? { SkipStepInLockstep(app, disk, selected, r.app, r.disk); }
        }
        assert r.Deleted? ==> DeletedCounted(app, disk, selected, r.app) by {
          if r.Deleted? { SkipStepCounted(app, disk, selected, r.app); }
        }
        assert r.NotListed? ==> NotListedDisk(disk, selected, r.disk) by {
          if r.NotListed? { SelectedNames(selected); }
        }
        r
      else if name !in app.files then
        assert selected[0] in disk && selected[0] !in app.files;
        assert NotListedDisk(disk, selected, disk - {name}) by { SelectedNames(selected); }
        NotListed(disk - {name})
      else
        var i := IndexOf(app.files, name);
        var next := app.(files := RemoveAt(app.files, i), encodings := RemoveAt(app.encodings, i));
        var r := DeleteEach(next, disk - {name}, selected[1..]);
        assert r.NotListed? ==> exists k :: 0 <= k < |selected| && selected[k] in disk && selected[k] !in app.files
        by {
          if r.NotListed? {
            var k :| 0 <= k < |selected[1..]| && selected[1..][k] in disk - {name} && selected[1..][k] !in next.files;
            RemovedStillListed(app.files, i);
            assert selected[k + 1] == selected[1..][k];
          }
        }
        assert r.Deleted? ==> DeletedInLockstep(app, disk, selected, r.app, r.disk) by {
          if r.Deleted? { DeleteStepInLockstep(app, disk, selected, i, r.app, r.disk); }
        }
        assert r.Deleted? ==> DeletedCounted(app, disk, selected, r.app) by {
          if r.Deleted? { DeleteStepCounted(app, disk, selected, i, r.app); }
        }
        assert r.NotListed? ==> NotListedDisk(disk, selected, r.disk) by {
          if r.NotListed? { SelectedNames(selected); }
        }
        r
  }

  /**
   * From a mirroring window whose selected names, where they have a file,
   * are all listed, the loop deletes exactly the selected files.
   */
  lemma {:induction false} DeleteEachExact(app: App, disk: Disk, selected: seq<string>)
    requires |app.files| == |app.encodings|
    ensures Mirrors(app, disk) && SelectionListed(app, disk, selected)
            ==> DeletedExactly(app, disk, selected, DeleteEach(app, disk, selected))
    decreases |selected|
  {
    if Mirrors(app, disk) && SelectionListed(app, disk, selected) {
      if |selected| == 0 {
        SubsequenceReflexive(app.files);
        assert (set n | n in selected) == {};
      } else if selected[0] !in disk {
        DeleteEachExact(app, disk, selected[1..]);
        ExactSkipStep(app, disk, selected, DeleteEach(app, disk, selected[1..]));
      } else {
        var i := IndexOf(app.files, selected[0]);
        var next := app.(files := RemoveAt(app.files, i), encodings := RemoveAt(app.encodings, i));
        DeleteKeepsMirror(app, disk, i);
        assert SelectionListed(next, disk - {selected[0]}, selected[1..]);
        DeleteEachExact(next, disk - {selected[0]}, selected[1..]);
        ExactDeleteStep(app, disk, selected, i, DeleteEach(next, disk - {selected[0]}, selected[1..]));
      }
    }
  }

  /** A selected name without a file leaves an exact deletion of the rest exact. */
  lemma ExactSkipStep(app: App, disk: Disk, selected: seq<string>, r: Deletion)
    requires Mirrors(app, disk) && SelectionListed(app, disk, selected)
    requires |selected| > 0 && selected[0] !in disk
    requires DeletedExactly(app, disk, selected[1..], r)
    ensures DeletedExactly(app, disk, selected, r)
  {
    SelectedNames(selected);
    assert selected[0] !in app.files;
  }

  /** Deleting the first selected name and then the rest exactly is an exact deletion. */
  lemma ExactDeleteStep(app: App, disk: Disk, selected: seq<string>, i: nat, r: Deletion)
    requires Mirrors(app, disk) && |selected| > 0
    requires i < |app.files| && app.files[i] == selected[0]
    requires var next := app.(files := RemoveAt(app.files, i), encodings := RemoveAt(app.encodings, i));
             DeletedExactly(next, disk - {selected[0]}, selected[1..], r)
    ensures DeletedExactly(app, disk, selected, r)
  {
    var next := app.(files := RemoveAt(app.files, i), encodings := RemoveAt(app.encodings, i));
    DeleteKeepsMirror(app, disk, i);
    SelectedNames(selected);
    SubsequenceTransitive(r.app.files, next.files, app.files);
  }

  /** Removing the entry at `i` keeps every other name listed. */
  lemma RemovedStillListed(files: seq<string>, i: nat)
    requires i < |files|
    ensures forall n :: n in files && n != files[i] ==> n in RemoveAt(files, i)
  {
    forall n | n in files && n != files[i]
      ensures n in RemoveAt(files, i)
    {
      assert multiset(RemoveAt(files, i))[n] == multiset(files)[n];
    }
  }

  /** Without repeats, removing the entry at `i` removes exactly that name. */
  lemma RemoveAtDistinct(files: seq<string>, i: nat)
    requires Distinct(files) && i < |files|
    ensures Distinct(RemoveAt(files, i))
    ensures forall n :: n in RemoveAt(files, i) <==> n in files && n != files[i]
  {
    var r := RemoveAt(files, i);
    SubsequenceDistinct(r, files);
    RemovedStillListed(files, i);
    forall n | n in r
      ensures n != files[i]
    {
      var k :| 0 <= k < |r| && r[k] == n;
      if k < i {
        assert r[k] == files[k];
      } else {
        assert r[k] == files[k + 1];
      }
    }
  }

  /** Dropping entry `i` from both lists and its file from the directory keeps the mirror. */
  lemma DeleteKeepsMirror(app: App, disk: Disk, i: nat)
    requires Mirrors(app, disk) && i < |app.files|
    ensures var next := app.(files := RemoveAt(app.files, i), encodings := RemoveAt(app.encodings, i));
            && Mirrors(next, disk - {app.files[i]})
            && forall n :: n in next.files <==> n in app.files && n != app.files[i]
  {
    var next := app.(files := RemoveAt(app.files, i), encodings := RemoveAt(app.encodings, i));
    RemoveAtDistinct(app.files, i);
    RemainingEntriesKept(app, disk, i);
    forall n | n in disk - {app.files[i]} && IsTemplateOf(app.user, n)
      ensures n in next.files
    {
      assert n in app.files;
    }
  }

  /** After dropping entry `i`, every remaining entry still names a template on disk holding its encoding. */
  lemma RemainingEntriesKept(app: App, disk: Disk, i: nat)
    requires Mirrors(app, disk) && i < |app.files|
    ensures var files := RemoveAt(app.files, i);
            var encs := RemoveAt(app.encodings, i);
            forall k :: 0 <= k < |files| ==>
              && files[k] in disk - {app.files[i]}
              && disk[files[k]] == encs[k]
              && IsTemplateOf(app.user, files[k])
  {
    var files := RemoveAt(app.files, i);
    var encs := RemoveAt(app.encodings, i);
    forall k | 0 <= k < |files|
      ensures files[k] in disk - {app.files[i]} && disk[files[k]] == encs[k] && IsTemplateOf(app.user, files[k])
    {
      var k' := if k < i then k else k + 1;
      assert files[k] == app.files[k'] && encs[k] == app.encodings[k'];
      assert app.files[k'] != app.files[i];
    }
  }

  /**
   * `delete_selected_face`: with nothing selected a warning and no
   * change; otherwise the loop above. From a mirroring window whose
   * selection comes from its list, exactly the selected files go.
   */
  function DeleteSelected(app: App, disk: Disk, selected: seq<string>): (r: Deletion)
    requires |app.files| == |app.encodings|
    ensures r.NothingSelected? <==> |selected| == 0
    ensures r.NotListed? ==> exists k :: 0 <= k < |selected| && selected[k] in disk && selected[k] !in app.files
    ensures |selected| > 0 && Mirrors(app, disk) && SelectionListed(app, disk, selected)
            ==> DeletedExactly(app, disk, selected, r)
    ensures r.NotListed? ==> NotListedDisk(disk, selected, r.disk)
    ensures r.Deleted? ==> DeletedInLockstep(app, disk, selected, r.app, r.disk)
    ensures r.Deleted? ==> DeletedCounted(app, disk, selected, r.app)
  {
    DeleteEachExact(app, disk, selected);
    if |selected| == 0 then NothingSelected else DeleteEach(app, disk, selected)
  }

  // ---------------------------------------------------------------------
  // Modes and the live preview
  // ---------------------------------------------------------------------

  /** `start_adding_face`: add mode, whatever the window was doing; the lists are untouched. */
  function StartAdding(app: App): (r: App)
    ensures r.mode == Adding
    ensures r.user == app.user && r.files == app.files && r.encodings == app.encodings
  {
    app.(mode := Adding)
  }

  /** `start_recognition`: refused with a warning while there is no encoding to compare with. */
  function StartRecognition(app: App): (r: Option<App>)
    ensures r.None? <==> |app.encodings| == 0
    ensures r.Some? ==> r.value.mode == Recognizing
                        && r.value.user == app.user && r.value.files == app.files
                        && r.value.encodings == app.encodings
  {
    if |app.encodings| == 0 then None else Some(app.(mode := Recognizing))
  }

  /** What the preview draws for one detected face. */
  datatype Label = NoLabel | AddHint | Known | Unknown

  /**
   * The per-face branch of `update_frame`: the save hint in add mode; in
   * recognition mode with encodings, the user's name when the closest
   * encoding lies within 0.4 and "unknown person" otherwise; nothing
   * else.
   */
  function FaceLabel(app: App, face: Descriptor, dist: Metric): (l: Label)
    ensures l == AddHint <==> app.mode == Adding
    ensures l == Known <==> app.mode == Recognizing
                            && exists i :: 0 <= i < |app.encodings| && dist(app.encodings[i], face) < PreviewThreshold
    ensures l == Unknown <==> app.mode == Recognizing && |app.encodings| > 0
                              && forall i :: 0 <= i < |app.encodings| ==> dist(app.encodings[i], face) >= PreviewThreshold
    ensures l == NoLabel <==> app.mode == Idle || (app.mode == Recognizing && |app.encodings| == 0)
  {
    AcceptsIffSomeClose(app.encodings, face, dist, PreviewThreshold);
    match app.mode
    case Idle => NoLabel
    case Adding => AddHint
    case Recognizing =>
      if |app.encodings| == 0 then NoLabel
      else if MinDistance(app.encodings, face, dist) < PreviewThreshold then Known
      else Unknown
  }

  /**
   * Deleting every template while recognising leaves the window in
   * recognition mode, and the preview then labels no face.
   */
  lemma RecognitionAfterDeletingAll(app: App, disk: Disk, face: Descriptor, dist: Metric)
    requires Mirrors(app, disk) && app.mode == Recognizing && |app.files| > 0
    ensures var r := DeleteSelected(app, disk, app.files);
            && r.Deleted? && r.app.mode == Recognizing && r.app.files == []
            && FaceLabel(r.app, face, dist) == NoLabel
  {
    var r := DeleteSelected(app, disk, app.files);
    assert DeletedExactly(app, disk, app.files, r);
  }

  /**
   * A face the preview labels as the user, the daemon accepts against
   * the same encodings: 0.4 is stricter than 0.6.
   */
  lemma PreviewStricterThanDaemon(app: App, face: Descriptor, dist: Metric)
    requires FaceLabel(app, face, dist) == Known
    ensures Session.Accepted(app.encodings, face, dist)
  {
    var i :| 0 <= i < |app.encodings| && dist(app.encodings[i], face) < PreviewThreshold;
    AcceptsIffSomeClose(app.encodings, face, dist, DaemonThreshold);
  }

  /**
   * The daemon and the window read the same directory alike: for the
   * same user and listing, the daemon authenticates against exactly the
   * encodings the window lists, in the same order.
   */
  lemma DaemonLoadsWindowEncodings(user: string, listing: seq<string>, disk: Disk, load: string -> Descriptor)
    requires IsListing(listing, disk)
    requires forall n :: n in disk ==> load(n) == disk[n]
    ensures Daemon.LoadKnownFaces(Some(user), Daemon.Present(listing), load) == Daemon.Templates(Load(user, listing, disk).encodings)
  {
    var app := Load(user, listing, disk);
    var loaded := Daemon.LoadKnownFaces(Some(user), Daemon.Present(listing), load);
    forall k | 0 <= k < |app.files|
      ensures loaded.faces[k] == app.encodings[k]
    {
      assert app.files[k] in disk;
    }
  }
}

=== FILE: matching.dfy ===
/**
 * Comparing one face descriptor against stored templates. Descriptor
 * extraction and the Euclidean norm belong to external libraries: a
 * descriptor is a vector of reals and the distance is a parameter.
 */
module Matching {

  type Descriptor = seq<real>

  /** `np.linalg.norm(known - encoding)`, supplied by the caller. */
  type Metric = (Descriptor, Descriptor) -> real

  /** Acceptance threshold of the authentication daemon. */
  const DaemonThreshold: real := 0.6

  /** Acceptance threshold of the enrollment tool's live preview. */
  const PreviewThreshold: real := 0.4

  /** `min([dist(known, d) for known in templates])`: the distance to the closest template. */
  function MinDistance(templates: seq<Descriptor>, d: Descriptor, dist: Metric): (m: real)
    requires |templates| > 0
    ensures forall i :: 0 <= i < |templates| ==> m <= dist(templates[i], d)
    ensures exists i :: 0 <= i < |templates| && m == dist(templates[i], d)
  {
    if |templates| == 1 then dist(templates[0], d)
    else
      var rest := MinDistance(templates[1..], d, dist);
      if dist(templates[0], d) <= rest then dist(templates[0], d) else rest
  }

  /** There are templates and the closest one lies strictly within the threshold. */
  predicate Accepts(templates: seq<Descriptor>, d: Descriptor, dist: Metric, threshold: real) {
    |templates| > 0 && MinDistance(templates, d, dist) < threshold
  }

  /** Comparing the minimum with the threshold is the same as asking for one close template. */
  lemma AcceptsIffSomeClose(templates: seq<Descriptor>, d: Descriptor, dist: Metric, threshold: real)
    ensures Accepts(templates, d, dist, threshold)
            <==> exists i :: 0 <= i < |templates| && dist(templates[i], d) < threshold
  {
    if exists i :: 0 <= i < |templates| && dist(templates[i], d) < threshold {
      var i :| 0 <= i < |templates| && dist(templates[i], d) < threshold;
      assert MinDistance(templates, d, dist) <= dist(templates[i], d);
    }
  }
}

=== FILE: sequences.dfy ===
/**
 * Sequence facts used by the list bookkeeping: order-preserving
 * sub-sequences, removal at an index, and Python's `list.index`.
 */
module Seqs {

  /** `a` is `b` with some entries left out and the rest kept in order. */
  predicate IsSubsequence<T(==)>(a: seq<T>, b: seq<T>)
    decreases |b|
  {
    |a| == 0
    || (|b| > 0 && ((a[0] == b[0] && IsSubsequence(a[1..], b[1..])) || IsSubsequence(a, b[1..])))
  }

  lemma {:induction false} SubsequenceReflexive<T>(a: seq<T>)
    ensures IsSubsequence(a, a)
  {
    if |a| > 0 {
      SubsequenceReflexive(a[1..]);
    }
  }

  lemma {:induction false} SubsequenceTransitive<T>(a: seq<T>, b: seq<T>, c: seq<T>)
    requires IsSubsequence(a, b) && IsSubsequence(b, c)
    ensures IsSubsequence(a, c)
    decreases |c|
  {
    if |a| > 0 {
      if IsSubsequence(b, c[1..]) {
        SubsequenceTransitive(a, b, c[1..]);
      } else if a[0] == b[0] && IsSubsequence(a[1..], b[1..]) {
        SubsequenceTransitive(a[1..], b[1..], c[1..]);
      } else {
        SubsequenceTransitive(a, b[1..], c[1..]);
      }
    }
  }

  lemma {:induction false} SubsequenceRemoveAt<T>(s: seq<T>, i: nat)
    requires i < |s|
    ensures IsSubsequence(s[..i] + s[i + 1..], s)
    decreases i
  {
    if i == 0 {
      assert s[..0] + s[1..] == s[1..];
      SubsequenceReflexive(s[1..]);
    } else {
      var r := s[..i] + s[i + 1..];
      assert r[0] == s[0];
      assert r[1..] == s[1..][..i - 1] + s[1..][i..];
      SubsequenceRemoveAt(s[1..], i - 1);
    }
  }

  /** No entry occurs twice. */
  predicate Distinct<T(==)>(s: seq<T>) {
    forall i, j :: 0 <= i < j < |s| ==> s[i] != s[j]
  }

  /** A sub-sequence of a sequence without repeats has no repeats, and takes its entries from it. */
  lemma {:induction false} SubsequenceDistinct<T>(a: seq<T>, b: seq<T>)
    requires IsSubsequence(a, b) && Distinct(b)
    ensures Distinct(a)
    ensures forall x :: x in a ==> x in b
    decreases |b|
  {
    if |a| > 0 {
      assert Distinct(b[1..]) by {
        forall i, j | 0 <= i < j < |b[1..]|
          ensures b[1..][i] != b[1..][j]
        {
          assert b[1..][i] == b[i + 1] && b[1..][j] == b[j + 1];
        }
      }
      if a[0] == b[0] && IsSubsequence(a[1..], b[1..]) {
        SubsequenceDistinct(a[1..], b[1..]);
        assert b[0] !in b[1..] by {
          forall j | 0 <= j < |b[1..]|
            ensures b[1..][j] != b[0]
          {
            assert b[1..][j] == b[j + 1];
          }
        }
        forall i, j | 0 <= i < j < |a|
          ensures a[i] != a[j]
        {
          assert a[j] == a[1..][j - 1];
          if i > 0 {
            assert a[i] == a[1..][i - 1];
          }
        }
        forall x | x in a
          ensures x in b
        {
          if x != a[0] {
            assert x in a[1..];
          }
        }
      } else {
        SubsequenceDistinct(a, b[1..]);
      }
    }
  }

  /** `del s[i]`: the sequence without its entry at `i`; the others keep their order. */
  function RemoveAt<T>(s: seq<T>, i: nat): (r: seq<T>)
    requires i < |s|
    ensures |r| == |s| - 1
    ensures IsSubsequence(r, s)
    ensures multiset(r) == multiset(s) - multiset{s[i]}
    ensures forall k :: 0 <= k < |r| ==> r[k] == if k < i then s[k] else s[k + 1]
  {
    SubsequenceRemoveAt(s, i);
    assert s == s[..i] + [s[i]] + s[i + 1..];
    s[..i] + s[i + 1..]
  }

  /** `s.index(x)`: the position of the first occurrence of `x`. */
  function IndexOf<T(==)>(s: seq<T>, x: T): (i: nat)
    requires x in s
    ensures i < |s| && s[i] == x
    ensures x !in s[..i]
  {
    if s[0] == x then 0
    else
      var i := 1 + IndexOf(s[1..], x);
      assert s[..i] == [s[0]] + s[1..][..i - 1];
      i
  }
}

=== FILE: session.dfy ===
/**
 * `authenticate_user` of the daemon as a function of what it observes:
 * the user's templates, whether the camera opened, and the frames read
 * before the ten-second deadline. A frame is either a failed read or the
 * descriptors of the faces the external detector found in it. The clock
 * is abstracted away: the frame sequence is what was read in time.
 */
module Session {

  import opened Wrappers
  import opened Matching

  datatype Frame = ReadFailed | Captured(faces: seq<Descriptor>)

  /** The video source: it did not open, or it opened and these frames were read before the deadline. */
  datatype Camera = OpenFailed | Opened(frames: seq<Frame>)

  datatype Outcome =
    | NoEnrollment                   // no templates: returned before touching the camera
    | CaptureFailed                  // the camera did not open
    | Matched(frame: nat, face: nat) // the first accepted face, by frame and position in the frame
    | TimedOut                       // the deadline passed without an accepted face

  /** One session: its outcome, whether it constructed the video source, and how often it released it. */
  datatype Run = Run(outcome: Outcome, cameraUsed: bool, releases: nat)

  predicate Authenticated(r: Run) {
    r.outcome.Matched?
  }

  /** The daemon accepts a face whose closest template lies within 0.6. */
  predicate Accepted(templates: seq<Descriptor>, d: Descriptor, dist: Metric) {
    Accepts(templates, d, dist, DaemonThreshold)
  }

  /** Frame `i` was read, has a face at position `j`, and that face is accepted. */
  predicate MatchAt(templates: seq<Descriptor>, frames: seq<Frame>, dist: Metric, i: int, j: int) {
    && 0 <= i < |frames|
    && frames[i].Captured?
    && 0 <= j < |frames[i].faces|
    && Accepted(templates, frames[i].faces[j], dist)
  }

  /** Position (i, j) is examined before (i', j'): an earlier frame, or an earlier face in the same frame. */
  predicate Before(i: int, j: int, i': int, j': int) {
    i < i' || (i == i' && j < j')
  }

  /** The first accepted face at or after position `start` of one frame. */
  function FirstFaceFrom(templates: seq<Descriptor>, faces: seq<Descriptor>, dist: Metric, start: nat): (r: Option<nat>)
    requires start <= |faces|
    ensures r.Some? ==> start <= r.value < |faces| && Accepted(templates, faces[r.value], dist)
    ensures r.Some? ==> forall j :: start <= j < r.value ==> !Accepted(templates, faces[j], dist)
    ensures r.None? ==> forall j :: start <= j < |faces| ==> !Accepted(templates, faces[j], dist)
    decreases |faces| - start
  {
    if start == |faces| then None
    else if Accepted(templates, faces[start], dist) then Some(start)
    else FirstFaceFrom(templates, faces, dist, start + 1)
  }

  /** The first accepted face in frames `start` onwards, in the order the daemon examines them. */
  function FirstMatchFrom(templates: seq<Descriptor>, frames: seq<Frame>, dist: Metric, start: nat): (r: Option<(nat, nat)>)
    requires start <= |frames|
    ensures r.Some? ==> start <= r.value.0 && MatchAt(templates, frames, dist, r.value.0, r.value.1)
    ensures r.Some? ==> forall i, j :: start <= i && Before(i, j, r.value.0, r.value.1)
                                       ==> !MatchAt(templates, frames, dist, i, j)
    ensures r.None? ==> forall i, j :: start <= i ==> !MatchAt(templates, frames, dist, i, j)
    decreases |frames| - start
  {
    if start == |frames| then None
    else
      match frames[start]
      case ReadFailed => FirstMatchFrom(templates, frames, dist, start + 1)
      case Captured(faces) =>
        match FirstFaceFrom(templates, faces, dist, 0)
        case Some(j) => Some((start, j))
        case None => FirstMatchFrom(templates, frames, dist, start + 1)
  }

  /**
   * The session: no templates means no camera at all; a camera that does
   * not open fails without a release; otherwise the first accepted face
   * wins and the camera is released once on either exit.
   */
  function Authenticate(templates: seq<Descriptor>, camera: Camera, dist: Metric): (r: Run)
    ensures |templates| == 0 ==> r.outcome == NoEnrollment && !r.cameraUsed && r.releases == 0
    ensures |templates| > 0 && camera.OpenFailed? ==> r.outcome == CaptureFailed && r.cameraUsed && r.releases == 0
    ensures |templates| > 0 && camera.Opened? ==> r.cameraUsed && r.releases == 1
    ensures |templates| > 0 && camera.Opened? && !Authenticated(r) ==> r.outcome == TimedOut
    ensures Authenticated(r) <==> (|templates| > 0 && camera.Opened?
                                   && exists i, j :: MatchAt(templates, camera.frames, dist, i, j))
    ensures r.outcome.Matched? ==> camera.Opened?
                                   && MatchAt(templates, camera.frames, dist, r.outcome.frame, r.outcome.face)
                                   && forall i, j :: Before(i, j, r.outcome.frame, r.outcome.face)
                                                     ==> !MatchAt(templates, camera.frames, dist, i, j)
  {
    if |templates| == 0 then Run(NoEnrollment, false, 0)
    else
      match camera
      case OpenFailed => Run(CaptureFailed, true, 0)
      case Opened(frames) =>
        match FirstMatchFrom(templates, frames, dist, 0)
        case Some(p) => Run(Matched(p.0, p.1), true, 1)
        case None => Run(TimedOut, true, 1)
  }

  /** An accepted face with no accepted face before it is the one the scan reports. */
  lemma FirstMatchIs(templates: seq<Descriptor>, frames: seq<Frame>, dist: Metric, i: nat, j: nat)
    requires MatchAt(templates, frames, dist, i, j)
    requires forall i', j' :: Before(i', j', i, j) ==> !MatchAt(templates, frames, dist, i', j')
    ensures FirstMatchFrom(templates, frames, dist, 0) == Some((i, j))
  {
    var r := FirstMatchFrom(templates, frames, dist, 0);
    assert r.Some?;
    var (i', j') := r.value;
    assert !Before(i', j', i, j);
    assert !Before(i, j, i', j');
  }

  /**
   * The daemon's loop: frames in order, faces in order within a frame,
   * failed reads skipped, an early return with a release on the first
   * accepted face, and a release after the last frame otherwise.
   */
  method RunSession(templates: seq<Descriptor>, camera: Camera, dist: Metric) returns (r: Run)
    ensures r == Authenticate(templates, camera, dist)
  {
    if |templates| == 0 {
      return Run(NoEnrollment, false, 0);
    }
    if camera.OpenFailed? {
      return Run(CaptureFailed, true, 0);
    }
    var frames := camera.frames;
    var releases := 0;
    var i := 0;
    while i < |frames|
      invariant 0 <= i <= |frames|
      invariant forall i', j' :: 0 <= i' < i ==> !MatchAt(templates, frames, dist, i', j')
    {
      match frames[i] {
        case ReadFailed =>
        case Captured(faces) =>
          var j := 0;
          while j < |faces|
            invariant 0 <= j <= |faces|
            invariant forall j' :: 0 <= j' < j ==> !Accepted(templates, faces[j'], dist)
          {
            var m := MinDistance(templates, faces[j], dist);
            if m < DaemonThreshold {
              releases := releases + 1;
              FirstMatchIs(templates, frames, dist, i, j);
              return Run(Matched(i, j), true, releases);
            }
            j := j + 1;
          }
      }
      i := i + 1;
    }
    releases := releases + 1;
    return Run(TimedOut, true, releases);
  }

  /** A failed read inserted anywhere in the frame sequence does not change the decision. */
  lemma FailedReadIgnored(templates: seq<Descriptor>, frames: seq<Frame>, k: nat, dist: Metric)
    requires k <= |frames|
    ensures Authenticated(Authenticate(templates, Opened(frames[..k] + [ReadFailed] + frames[k..]), dist))
            == Authenticated(Authenticate(templates, Opened(frames), dist))
  {
    var more := frames[..k] + [ReadFailed] + frames[k..];
    assert forall i :: 0 <= i < k ==> more[i] == frames[i];
    assert forall i :: k <= i < |frames| ==> more[i + 1] == frames[i];
    if exists i, j :: MatchAt(templates, frames, dist, i, j) {
      var i, j :| MatchAt(templates, frames, dist, i, j);
      var i' := if i < k then i else i + 1;
      assert MatchAt(templates, more, dist, i', j);
    }
    if exists i, j :: MatchAt(templates, more, dist, i, j) {
      var i, j :| MatchAt(templates, more, dist, i, j);
      assert i != k;
      var i' := if i < k then i else i - 1;
      assert MatchAt(templates, frames, dist, i', j);
    }
  }

  /**
   * Nothing after the first accepted face is looked at: replacing the
   * later faces of that frame and all later frames leaves the outcome.
   */
  lemma LaterInputIgnored(templates: seq<Descriptor>, frames: seq<Frame>, dist: Metric,
                          moreFaces: seq<Descriptor>, later: seq<Frame>)
    requires Authenticate(templates, Opened(frames), dist).outcome.Matched?
    ensures var o := Authenticate(templates, Opened(frames), dist).outcome;
            var cut := frames[..o.frame]
                       + [Captured(frames[o.frame].faces[..o.face + 1] + moreFaces)] + later;
            Authenticate(templates, Opened(cut), dist).outcome == o
  {
    var o := Authenticate(templates, Opened(frames), dist).outcome;
    var i, j := o.frame, o.face;
    var faces := frames[i].faces[..j + 1] + moreFaces;
    var cut := frames[..i] + [Captured(faces)] + later;
    assert forall i' :: 0 <= i' < i ==> cut[i'] == frames[i'];
    assert cut[i] == Captured(faces);
    assert forall j' :: 0 <= j' <= j ==> faces[j'] == frames[i].faces[j'];
    assert MatchAt(templates, cut, dist, i, j);
    forall i', j' | Before(i', j', i, j)
      ensures !MatchAt(templates, cut, dist, i', j')
    {
      assert !MatchAt(templates, frames, dist, i', j');
    }
    FirstMatchIs(templates, cut, dist, i, j);
  }
}

=== FILE: template_store.dfy ===
/**
 * The naming rules of the template directory that the daemon and the
 * enrollment tool share: which file names a user's lookup picks up, how
 * a sequence number is read back from a name, and how a new template is
 * named. File contents are not modelled here, only names.
 */
module TemplateStore {

  import opened Wrappers
  import opened Text
  import opened Seqs

  const Extension: string := ".npy"

  /** `name.startswith(user) and name.endswith(".npy")`: a plain prefix test on the user name. */
  predicate IsTemplateOf(user: string, name: string) {
    StartsWith(name, user) && EndsWith(name, Extension)
  }

  /**
   * The names `load_known_faces` keeps from a directory listing: exactly
   * the listed names that pass the test, each as often as it is listed,
   * in listing order.
   */
  function SelectTemplates(user: string, listing: seq<string>): (names: seq<string>)
    ensures IsSubsequence(names, listing)
    ensures forall name :: multiset(names)[name]
                           == if IsTemplateOf(user, name) then multiset(listing)[name] else 0
  {
    if |listing| == 0 then []
    else
      var rest := SelectTemplates(user, listing[1..]);
      assert listing == [listing[0]] + listing[1..];
      if IsTemplateOf(user, listing[0]) then [listing[0]] + rest else rest
  }

  /** Every selected name is a listed name that passes the test. */
  lemma SelectedAreListedTemplates(user: string, listing: seq<string>)
    ensures forall k :: 0 <= k < |SelectTemplates(user, listing)| ==>
              SelectTemplates(user, listing)[k] in listing
              && IsTemplateOf(user, SelectTemplates(user, listing)[k])
  {
    var names := SelectTemplates(user, listing);
    forall k | 0 <= k < |names|
      ensures names[k] in listing && IsTemplateOf(user, names[k])
    {
      assert multiset(names)[names[k]] > 0;
    }
  }

  /**
   * The prefix test does not stop at a user-name boundary: user `al`
   * picks up `alice`'s templates.
   */
  lemma PrefixMatchTakesOtherUsers()
    ensures SelectTemplates("al", ["alice_face_1.npy", "al_face_1.npy"])
            == ["alice_face_1.npy", "al_face_1.npy"]
  {
    assert IsTemplateOf("al", "alice_face_1.npy");
    assert IsTemplateOf("al", "al_face_1.npy");
  }

  // ---------------------------------------------------------------------
  // Sequence numbers
  // ---------------------------------------------------------------------

  /** `f"{user}_face_{n}.npy"` */
  function TemplateName(user: string, n: nat): (name: string)
    ensures IsTemplateOf(user, name)
  {
    user + "_face_" + Decimal(n) + Extension
  }

  /**
   * The largest number `parse` reads from any of `files`, 0 when it reads
   * none: names it cannot read have no influence.
   */
  function HighestNumber(files: seq<string>, parse: string -> Option<nat>): (m: nat)
    ensures forall i :: 0 <= i < |files| && parse(files[i]).Some? ==> parse(files[i]).value <= m
  {
    if |files| == 0 then 0
    else
      var m := HighestNumber(files[..|files| - 1], parse);
      assert forall i :: 0 <= i < |files| - 1 ==> files[..|files| - 1][i] == files[i];
      match parse(files[|files| - 1])
      case Some(k) => if k > m then k else m
      case None => m
  }

  /** The largest number is 0 or one that `parse` actually reads from some name. */
  lemma {:induction false} HighestNumberRead(files: seq<string>, parse: string -> Option<nat>)
    ensures var m := HighestNumber(files, parse);
            m == 0 || exists i :: 0 <= i < |files| && parse(files[i]) == Some(m)
    decreases |files|
  {
    if |files| > 0 {
      var init := files[..|files| - 1];
      HighestNumberRead(init, parse);
      var m := HighestNumber(init, parse);
      if m != 0 && HighestNumber(files, parse) == m {
        var i :| 0 <= i < |init| && parse(init[i]) == Some(m);
        assert files[i] == init[i];
      }
    }
  }

  /**
   * The number `save_face_encoding` reads from a name as written: every
   * ".npy" removed, the rest split on '_', and the third piece taken when
   * it is all digits.
   */
  function ParseSeqNo(name: string): (r: Option<nat>)
    ensures '_' !in RemoveAll(name, Extension) ==> r.None?
  {
    var base := RemoveAll(name, Extension);
    var parts := Split(base, '_');
    assert '_' !in base ==> |parts| == 1 by {
      if '_' !in base { SplitNoSeparator(base, '_'); }
    }
    if |parts| >= 3 && IsDigits(parts[2]) then Some(DecimalValue(parts[2])) else None
  }

  /**
   * Whatever way the name without its extensions is cut into
   * underscore-free fields, a number is read exactly when there are at
   * least three fields and the third is all digits, and it is that
   * field's value.
   */
  lemma ParseSeqNoFields(name: string, parts: seq<string>)
    requires IsFieldsOf(parts, RemoveAll(name, Extension), '_')
    ensures ParseSeqNo(name).Some? <==> |parts| >= 3 && IsDigits(parts[2])
    ensures ParseSeqNo(name).Some? ==> ParseSeqNo(name).value == DecimalValue(parts[2])
  {
    FieldsAreSplit(parts, RemoveAll(name, Extension), '_');
  }

  /**
   * The loop of `save_face_encoding` as written: the new number is one
   * more than the largest number read from the current list (so 1 when
   * none is read), and the new name carries it.
   */
  method NewTemplateName(user: string, files: seq<string>) returns (n: nat, name: string)
    ensures forall i :: 0 <= i < |files| && ParseSeqNo(files[i]).Some? ==> ParseSeqNo(files[i]).value < n
    ensures n == 1 || exists i :: 0 <= i < |files| && ParseSeqNo(files[i]) == Some(n - 1)
    ensures n == HighestNumber(files, ParseSeqNo) + 1
    ensures name == TemplateName(user, n)
  {
    var maxNum: nat := 0;
    for k := 0 to |files|
      invariant maxNum == HighestNumber(files[..k], ParseSeqNo)
    {
      HighestNumberStep(files, k, ParseSeqNo);
      match ParseSeqNo(files[k])
      case Some(num) =>
        if num > maxNum {
          maxNum := num;
        }
      case None =>
    }
    assert files[..|files|] == files;
    HighestNumberRead(files, ParseSeqNo);
    n := maxNum + 1;
    name := TemplateName(user, n);
  }

  lemma HighestNumberStep(files: seq<string>, k: nat, parse: string -> Option<nat>)
    requires k < |files|
    ensures HighestNumber(files[..k + 1], parse)
            == match parse(files[k])
               case Some(num) => if num > HighestNumber(files[..k], parse) then num else HighestNumber(files[..k], parse)
               case None => HighestNumber(files[..k], parse)
  {
    assert files[..k + 1][..k] == files[..k];
  }

  lemma DigitsAvoid(d: string, c: char)
    requires AllDigits(d) && !IsDigitChar(c)
    ensures c !in d
  {
  }

  lemma JoinThree(x: string, y: string, z: string)
    ensures Join([x, y, z], '_') == x + "_" + y + "_" + z
  {
    assert [x, y, z][1..] == [y, z];
    assert [y, z][1..] == [z];
    assert Join([z], '_') == z;
    assert Join([y, z], '_') == y + "_" + z;
  }

  lemma JoinFour(w: string, x: string, y: string, z: string)
    ensures Join([w, x, y, z], '_') == w + "_" + x + "_" + y + "_" + z
  {
    assert [w, x, y, z][1..] == [x, y, z];
    JoinThree(x, y, z);
    assert Join([w, x, y, z], '_') == w + "_" + Join([x, y, z], '_');
  }

  /** `RemoveAll` on a template name strips only the extension after the number. */
  lemma {:induction false} RemoveExtension(user: string, n: nat)
    ensures RemoveAll(TemplateName(user, n), Extension)
            == RemoveAll(user, Extension) + "_face_" + Decimal(n)
  {
    var tail := "_face_" + Decimal(n);
    TailAvoidsDot(Decimal(n));
    calc {
      RemoveAll(TemplateName(user, n), Extension);
      { assert TemplateName(user, n) == user + (tail + Extension); }
      RemoveAll(user + (tail + Extension), Extension);
      { RemoveAllBoundary(user, tail + Extension, Extension); }
      RemoveAll(user, Extension) + RemoveAll(tail + Extension, Extension);
      { RemoveAllPassThrough(tail, Extension, Extension); }
      RemoveAll(user, Extension) + (tail + RemoveAll(Extension, Extension));
      { RemoveWholeExtension(); }
      RemoveAll(user, Extension) + (tail + "");
      { assert tail + "" == tail; }
      RemoveAll(user, Extension) + "_face_" + Decimal(n);
    }
  }

  /** The part of a template name between the user and the extension has no '.', and starts with '_'. */
  lemma TailAvoidsDot(d: string)
    requires AllDigits(d)
    ensures '.' !in "_face_" + d
    ensures ("_face_" + d + Extension)[0] == '_' && '_' !in Extension
  {
    DigitsAvoid(d, '.');
  }

  lemma RemoveWholeExtension()
    ensures RemoveAll(Extension, Extension) == ""
  {
    assert Extension[..|Extension|] == Extension;
    assert Extension[|Extension|..] == "";
  }

  /**
   * Round trip: for a user name without '_', reading the number back from
   * a generated name gives the number it was generated with.
   */
  lemma {:induction false} ParseTemplateName(user: string, n: nat)
    requires '_' !in user
    ensures ParseSeqNo(TemplateName(user, n)) == Some(n)
  {
    TemplateFields(user, n);
    ParseSeqNoFields(TemplateName(user, n), [RemoveAll(user, Extension), "face", Decimal(n)]);
  }

  /** For a user name without '_', a generated name without `.npy` has the fields user, `face`, number. */
  lemma TemplateFields(user: string, n: nat)
    requires '_' !in user
    ensures IsFieldsOf([RemoveAll(user, Extension), "face", Decimal(n)], RemoveAll(TemplateName(user, n), Extension), '_')
  {
    var d := Decimal(n);
    var stem := RemoveAll(user, Extension);
    RemoveExtension(user, n);
    DigitsAvoid(d, '_');
    JoinThree(stem, "face", d);
    FaceInfix(stem, d);
  }

  lemma FaceInfix(x: string, d: string)
    ensures x + "_face_" + d == x + "_" + "face" + "_" + d
  {
    assert "_face_" == "_" + "face" + "_";
  }

  /**
   * For a user name without '_', the generated name is not already in the
   * list it was computed from.
   */
  lemma NewNameFresh(user: string, files: seq<string>)
    requires '_' !in user
    ensures TemplateName(user, HighestNumber(files, ParseSeqNo) + 1) !in files
  {
    var m := HighestNumber(files, ParseSeqNo);
    ParseTemplateName(user, m + 1);
  }

  /** A name the parser cannot read, inserted anywhere, leaves the highest number alone. */
  lemma UnreadableNameIgnored(files: seq<string>, k: nat, name: string)
    requires k <= |files|
    requires ParseSeqNo(name).None?
    ensures HighestNumber(files[..k] + [name] + files[k..], ParseSeqNo) == HighestNumber(files, ParseSeqNo)
  {
    InsertUnread(files, k, name, ParseSeqNo);
  }

  lemma InsertUnread(files: seq<string>, k: nat, name: string, parse: string -> Option<nat>)
    requires k <= |files|
    requires parse(name).None?
    ensures HighestNumber(files[..k] + [name] + files[k..], parse) == HighestNumber(files, parse)
  {
    var more := files[..k] + [name] + files[k..];
    InsertKeepsEntries(files, k, name, parse);
    InsertAddsNothingRead(files, k, name, parse);
    HighestNumberBelow(files, more, parse);
    HighestNumberBelow(more, files, parse);
  }

  lemma InsertKeepsEntries(files: seq<string>, k: nat, name: string, parse: string -> Option<nat>)
    requires k <= |files|
    ensures var more := files[..k] + [name] + files[k..];
            forall i :: 0 <= i < |files| && parse(files[i]).Some? ==>
              exists j :: 0 <= j < |more| && more[j] == files[i]
  {
    var more := files[..k] + [name] + files[k..];
    forall i | 0 <= i < |files| && parse(files[i]).Some?
      ensures exists j :: 0 <= j < |more| && more[j] == files[i]
    {
      var j := InsertedIndex(files, k, name, i);
    }
  }

  lemma InsertAddsNothingRead(files: seq<string>, k: nat, name: string, parse: string -> Option<nat>)
    requires k <= |files|
    requires parse(name).None?
    ensures var more := files[..k] + [name] + files[k..];
            forall j :: 0 <= j < |more| && parse(more[j]).Some? ==>
              exists i :: 0 <= i < |files| && files[i] == more[j]
  {
    var more := files[..k] + [name] + files[k..];
    forall j | 0 <= j < |more| && parse(more[j]).Some?
      ensures exists i :: 0 <= i < |files| && files[i] == more[j]
    {
      assert more[k] == name by {
        assert |files[..k]| == k;
      }
      assert j != k;
      var i := if j < k then j else j - 1;
      var j' := InsertedIndex(files, k, name, i);
    }
  }

  /** Where entry `i` of `files` lands once `name` is inserted at `k`; the inserted entry is at `k`. */
  lemma InsertedIndex(files: seq<string>, k: nat, name: string, i: nat) returns (j: nat)
    requires k <= |files| && i < |files|
    ensures j == (if i < k then i else i + 1)
    ensures var more := files[..k] + [name] + files[k..];
            |more| == |files| + 1 && more[j] == files[i] && more[k] == name
  {
    j := if i < k then i else i + 1;
    var more := files[..k] + [name] + files[k..];
    if i < k {
      assert more[j] == files[..k][i];
    } else {
      assert more[j] == files[k..][i - k];
    }
  }

  /** Every number read from `files` is read from `more` too, so `more`'s highest is no lower. */
  lemma HighestNumberBelow(files: seq<string>, more: seq<string>, parse: string -> Option<nat>)
    requires forall i :: 0 <= i < |files| && parse(files[i]).Some? ==>
               exists j :: 0 <= j < |more| && more[j] == files[i]
    ensures HighestNumber(files, parse) <= HighestNumber(more, parse)
  {
    var m := HighestNumber(files, parse);
    HighestNumberRead(files, parse);
    if m != 0 {
      var i :| 0 <= i < |files| && parse(files[i]) == Some(m);
      var j :| 0 <= j < |more| && more[j] == files[i];
      assert parse(more[j]) == Some(m);
    }
  }

  /**
   * With a '_' inside the user name the third piece is never the number
   * (it is "face"), so none of that user's names can be read.
   */
  lemma {:induction false} UnderscoreNameUnreadable(a: string, b: string, n: nat)
    requires '_' !in a && '_' !in b
    ensures ParseSeqNo(TemplateName(a + "_" + b, n)) == None
  {
    var parts := [RemoveAll(a, Extension), RemoveAll(b, Extension), "face", Decimal(n)];
    UnderscoreUserFields(a, b, n);
    ParseSeqNoFields(TemplateName(a + "_" + b, n), parts);
    assert !IsDigitChar(parts[2][0]);
  }

  /** For a user name `a_b`, a generated name without `.npy` has four fields, the third being `face`. */
  lemma UnderscoreUserFields(a: string, b: string, n: nat)
    requires '_' !in a && '_' !in b
    ensures IsFieldsOf([RemoveAll(a, Extension), RemoveAll(b, Extension), "face", Decimal(n)],
                       RemoveAll(TemplateName(a + "_" + b, n), Extension), '_')
  {
    var d := Decimal(n);
    var sa := RemoveAll(a, Extension);
    var sb := RemoveAll(b, Extension);
    var parts := [sa, sb, "face", d];
    var stripped := RemoveAll(TemplateName(a + "_" + b, n), Extension);
    assert stripped == sa + "_" + sb + "_face_" + d by {
      RemoveExtension(a + "_" + b, n);
      RemoveUnderscoreUser(a, b);
    }
    assert Join(parts, '_') == stripped by {
      JoinFour(sa, sb, "face", d);
      FaceInfix(sa + "_" + sb, d);
    }
    assert forall i :: 0 <= i < |parts| ==> '_' !in parts[i] by {
      DigitsAvoid(d, '_');
    }
  }

  lemma RemoveUnderscoreUser(a: string, b: string)
    ensures RemoveAll(a + "_" + b, Extension) == RemoveAll(a, Extension) + "_" + RemoveAll(b, Extension)
  {
    assert a + "_" + b == a + ("_" + b);
    RemoveAllBoundary(a, "_" + b, Extension);
    RemoveAllPassThrough("_", b, Extension);
  }

  /**
   * Consequence as written: for such a user the next name is always
   * `<user>_face_1.npy`, the name of the template already saved.
   */
  lemma UnderscoreUserRepeatsName(a: string, b: string)
    requires '_' !in a && '_' !in b
    ensures var files := [TemplateName(a + "_" + b, 1)];
            TemplateName(a + "_" + b, HighestNumber(files, ParseSeqNo) + 1) == files[0]
  {
    UnderscoreNameUnreadable(a, b, 1);
  }

  // ---------------------------------------------------------------------
  // Corrected numbering: read the number after the user's own prefix
  // ---------------------------------------------------------------------

  /** The number of one of `user`'s own templates: the digits between `<user>_face_` and `.npy`. */
  function OwnSeqNo(user: string, name: string): Option<nat> {
    var prefix := user + "_face_";
    if |prefix| + |Extension| <= |name| && StartsWith(name, prefix) && EndsWith(name, Extension)
       && IsDigits(name[|prefix|..|name| - |Extension|])
    then Some(DecimalValue(name[|prefix|..|name| - |Extension|]))
    else None
  }

  /** The next number of the corrected rule: one more than the largest own number listed. */
  function NextOwnSeqNo(user: string, files: seq<string>): nat {
    HighestNumber(files, name => OwnSeqNo(user, name)) + 1
  }

  /** Round trip for every user name, '_' included. */
  lemma OwnSeqNoOfTemplateName(user: string, n: nat)
    ensures OwnSeqNo(user, TemplateName(user, n)) == Some(n)
  {
    var prefix := user + "_face_";
    var name := TemplateName(user, n);
    assert name == prefix + Decimal(n) + Extension;
    assert name[|prefix|..|name| - |Extension|] == Decimal(n);
  }

  /** The corrected rule never produces a name that is already listed, whatever the user name. */
  lemma OwnNameFresh(user: string, files: seq<string>)
    ensures TemplateName(user, NextOwnSeqNo(user, files)) !in files
    ensures forall i :: 0 <= i < |files| && OwnSeqNo(user, files[i]).Some?
                        ==> OwnSeqNo(user, files[i]).value < NextOwnSeqNo(user, files)
  {
    var parse := name => OwnSeqNo(user, name);
    var n := NextOwnSeqNo(user, files);
    OwnSeqNoOfTemplateName(user, n);
    assert forall i :: 0 <= i < |files| ==> parse(files[i]) == OwnSeqNo(user, files[i]);
  }

  /**
   * The two rules part ways even without '_' in the user name: next to
   * `alice_face_5.npy` and `al_face_1.npy`, user `al` is given number 6
   * as written (alice's 5 is read too) but 2 by the corrected rule.
   */
  lemma PrefixUserNumbering()
    ensures var files := [TemplateName("alice", 5), TemplateName("al", 1)];
            && HighestNumber(files, ParseSeqNo) + 1 == 6
            && NextOwnSeqNo("al", files) == 2
  {
    AliceNumberRead();
    AliceNumberSkipped();
  }

  lemma AliceNumberRead()
    ensures HighestNumber([TemplateName("alice", 5), TemplateName("al", 1)], ParseSeqNo) == 5
  {
    ParseTemplateName("alice", 5);
    ParseTemplateName("al", 1);
    HighestOfTwo(TemplateName("alice", 5), TemplateName("al", 1), ParseSeqNo);
  }

  lemma AliceNumberSkipped()
    ensures NextOwnSeqNo("al", [TemplateName("alice", 5), TemplateName("al", 1)]) == 2
  {
    var alice := TemplateName("alice", 5);
    OwnSeqNoOfTemplateName("al", 1);
    assert OwnSeqNo("al", alice).None? by {
      assert alice[2] == 'i';
    }
    HighestOfTwo(alice, TemplateName("al", 1), name => OwnSeqNo("al", name));
  }

  /** The highest number read from two names. */
  lemma HighestOfTwo(x: string, y: string, parse: string -> Option<nat>)
    ensures HighestNumber([x, y], parse)
            == var a := if parse(x).Some? then parse(x).value else 0;
               var b := if parse(y).Some? then parse(y).value else 0;
               if a < b then b else a
  {
    var a := if parse(x).Some? then parse(x).value else 0;
    assert [x][..0] == [];
    assert HighestNumber([x], parse) == a;
    assert [x, y][..1] == [x] && [x, y][1] == y;
  }
}

=== FILE: text.dfy ===
/**
 * The Python `str` operations that the template store and the protocol
 * server rely on, over Dafny strings (`seq<char>`): prefix and suffix
 * tests, `split` on one character, `replace(pat, "")`, `isdigit`, `int`,
 * `str` of a natural number, and `strip`.
 */
module Text {

  /** `s.startswith(prefix)` */
  predicate StartsWith(s: string, prefix: string) {
    |prefix| <= |s| && s[..|prefix|] == prefix
  }

  /** `s.endswith(suffix)` */
  predicate EndsWith(s: string, suffix: string) {
    |suffix| <= |s| && s[|s| - |suffix|..] == suffix
  }

  // ---------------------------------------------------------------------
  // Decimal numbers
  // ---------------------------------------------------------------------

  predicate IsDigitChar(c: char) {
    '0' <= c <= '9'
  }

  predicate AllDigits(s: string) {
    forall i :: 0 <= i < |s| ==> IsDigitChar(s[i])
  }

  /** `s.isdigit()` over ASCII digits: non-empty, every character a digit. */
  predicate IsDigits(s: string) {
    |s| > 0 && AllDigits(s)
  }

  function DigitValue(c: char): nat
    requires IsDigitChar(c)
  {
    c as int - '0' as int
  }

  function DigitChar(d: nat): (c: char)
    requires d < 10
    ensures IsDigitChar(c) && DigitValue(c) == d
  {
    ('0' as int + d) as char
  }

  /** `int(s)` for a string of decimal digits; leading zeros are allowed. */
  function DecimalValue(s: string): nat
    requires AllDigits(s)
  {
    if |s| == 0 then 0 else 10 * DecimalValue(s[..|s| - 1]) + DigitValue(s[|s| - 1])
  }

  /** `str(n)`: the digits of `n` without leading zeros, which `int` reads back as `n`. */
  function Decimal(n: nat): (s: string)
    ensures IsDigits(s)
    ensures s[0] == '0' ==> |s| == 1
    ensures DecimalValue(s) == n
  {
    if n < 10 then [DigitChar(n)]
    else
      var s := Decimal(n / 10) + [DigitChar(n % 10)];
      assert s[..|s| - 1] == Decimal(n / 10);
      s
  }

  // ---------------------------------------------------------------------
  // split / join on one separator character
  // ---------------------------------------------------------------------

  /**
   * `s.split(sep)` for a one-character separator: the pieces between
   * separators, empty pieces included, so there is always at least one.
   */
  function Split(s: string, sep: char): (fields: seq<string>)
    ensures |fields| >= 1
    ensures forall i :: 0 <= i < |fields| ==> sep !in fields[i]
  {
    if |s| == 0 then [""]
    else
      var rest := Split(s[1..], sep);
      if s[0] == sep then [""] + rest
      else [[s[0]] + rest[0]] + rest[1..]
  }

  /** `sep.join(fields)` */
  function Join(fields: seq<string>, sep: char): string
    requires |fields| >= 1
  {
    if |fields| == 1 then fields[0] else fields[0] + [sep] + Join(fields[1..], sep)
  }

  /** Splitting loses nothing: joining the pieces again gives back the string. */
  lemma {:induction false} JoinSplit(s: string, sep: char)
    ensures Join(Split(s, sep), sep) == s
  {
    if |s| > 0 {
      var rest := Split(s[1..], sep);
      JoinSplit(s[1..], sep);
      if s[0] == sep {
        assert ([""] + rest)[1..] == rest;
      } else if |rest| > 1 {
        var fields := [[s[0]] + rest[0]] + rest[1..];
        assert fields[1..] == rest[1..];
        assert s == [s[0]] + s[1..];
      } else {
        assert s == [s[0]] + s[1..];
      }
    }
  }

  /** A separator-free string followed by the separator is split off as the first piece. */
  lemma {:induction false} SplitAfterField(a: string, sep: char, b: string)
    requires sep !in a
    ensures Split(a + [sep] + b, sep) == [a] + Split(b, sep)
  {
    var s := a + [sep] + b;
    if |a| == 0 {
      assert s[1..] == b;
    } else {
      assert s[0] == a[0];
      assert s[1..] == a[1..] + [sep] + b;
      SplitAfterField(a[1..], sep, b);
      assert [a[0]] + a[1..] == a;
    }
  }

  lemma {:induction false} SplitNoSeparator(s: string, sep: char)
    requires sep !in s
    ensures Split(s, sep) == [s]
  {
    if |s| > 0 {
      SplitNoSeparator(s[1..], sep);
      assert [s[0]] + s[1..] == s;
    }
  }

  /** Joining separator-free pieces and splitting again gives back the pieces. */
  lemma {:induction false} SplitJoin(fields: seq<string>, sep: char)
    requires |fields| >= 1
    requires forall i :: 0 <= i < |fields| ==> sep !in fields[i]
    ensures Split(Join(fields, sep), sep) == fields
  {
    if |fields| == 1 {
      SplitNoSeparator(fields[0], sep);
    } else {
      SplitJoin(fields[1..], sep);
      SplitAfterField(fields[0], sep, Join(fields[1..], sep));
      assert [fields[0]] + fields[1..] == fields;
    }
  }

  /** `fields` are separator-free pieces that, joined by `sep`, spell `s`. */
  predicate IsFieldsOf(fields: seq<string>, s: string, sep: char) {
    && |fields| >= 1
    && Join(fields, sep) == s
    && forall i :: 0 <= i < |fields| ==> sep !in fields[i]
  }

  /** A string has exactly one such decomposition, and `Split` finds it. */
  lemma FieldsAreSplit(fields: seq<string>, s: string, sep: char)
    requires IsFieldsOf(fields, s, sep)
    ensures fields == Split(s, sep)
  {
    SplitJoin(fields, sep);
  }

  // ---------------------------------------------------------------------
  // replace(pat, "")
  // ---------------------------------------------------------------------

  /**
   * `s.replace(pat, "")` for a non-empty `pat`: scanning left to right,
   * every occurrence that does not overlap an earlier removed one is
   * dropped. The result uses no character that `s` does not.
   */
  function RemoveAll(s: string, pat: string): (r: string)
    requires |pat| > 0
    ensures forall c :: c in r ==> c in s
    ensures |r| <= |s|
    decreases |s|
  {
    if |s| < |pat| then s
    else if s[..|pat|] == pat then RemoveAll(s[|pat|..], pat)
    else [s[0]] + RemoveAll(s[1..], pat)
  }

  /** A text without the pattern's first character is left unchanged. */
  lemma {:induction false} RemoveAllAbsent(s: string, pat: string)
    requires |pat| > 0 && pat[0] !in s
    ensures RemoveAll(s, pat) == s
  {
    RemoveAllPassThrough(s, [], pat);
    assert s + [] == s;
  }

  /** A prefix without the pattern's first character passes through unchanged. */
  lemma {:induction false} RemoveAllPassThrough(a: string, b: string, pat: string)
    requires |pat| > 0 && pat[0] !in a
    ensures RemoveAll(a + b, pat) == a + RemoveAll(b, pat)
  {
    if |a| > 0 && |a + b| >= |pat| {
      RemoveAllPassThrough(a[1..], b, pat);
      PassThroughStep(a, b, pat);
    } else if |a| == 0 {
      assert a + b == b;
    } else {
      PassThroughShort(a, b, pat);
    }
  }

  /** Too short to hold the pattern: nothing is removed on either side. */
  lemma PassThroughShort(a: string, b: string, pat: string)
    requires |pat| > 0 && |a + b| < |pat|
    ensures RemoveAll(a + b, pat) == a + RemoveAll(b, pat)
  {
    assert RemoveAll(b, pat) == b;
  }

  /** The first character of `a` passes through ahead of the rest. */
  lemma PassThroughStep(a: string, b: string, pat: string)
    requires |pat| > 0 && |a| > 0 && |a + b| >= |pat| && pat[0] != a[0]
    requires RemoveAll(a[1..] + b, pat) == a[1..] + RemoveAll(b, pat)
    ensures RemoveAll(a + b, pat) == a + RemoveAll(b, pat)
  {
    var s := a + b;
    RemoveAllStep(s, pat);
    assert s[1..] == a[1..] + b;
    assert s[0] == a[0];
    var r := RemoveAll(b, pat);
    ConsAssoc(a, r);
  }

  /** A sequence is its first element followed by the rest. */
  lemma ConsAssoc(a: string, r: string)
    requires |a| > 0
    ensures [a[0]] + (a[1..] + r) == a + r
  {
    assert a == [a[0]] + a[1..];
  }

  /** A text that does not start with the pattern keeps its first character. */
  lemma RemoveAllStep(s: string, pat: string)
    requires |pat| > 0 && |s| >= |pat| && s[0] != pat[0]
    ensures RemoveAll(s, pat) == [s[0]] + RemoveAll(s[1..], pat)
  {
    assert s[..|pat|][0] != pat[0];
  }

  /** A window of `n` characters starting at the front of `a + b` reaches into `b` unless `a` is that long. */
  lemma WindowReaches(a: string, b: string, n: nat)
    requires |b| > 0 && n <= |a + b|
    ensures |a| < n ==> b[0] in (a + b)[..n]
  {
    if |a| < n {
      assert (a + b)[..n][|a|] == b[0];
    }
  }

  /**
   * No occurrence of the pattern can straddle a position whose character
   * the pattern does not contain, so the removal works on both sides of
   * that position independently.
   */
  lemma {:induction false} RemoveAllBoundary(a: string, b: string, pat: string)
    requires |pat| > 0 && |b| > 0 && b[0] !in pat
    ensures RemoveAll(a + b, pat) == RemoveAll(a, pat) + RemoveAll(b, pat)
    decreases |a|
  {
    var s := a + b;
    var n := |pat|;
    if |a| == 0 {
      assert s == b;
    } else if |s| < n {
      assert RemoveAll(a, pat) == a;
      assert RemoveAll(b, pat) == b;
    } else if s[..n] == pat {
      MatchInFront(a, b, pat);
      calc {
        RemoveAll(s, pat);
        RemoveAll(a[n..] + b, pat);
        { RemoveAllBoundary(a[n..], b, pat); }
        RemoveAll(a[n..], pat) + RemoveAll(b, pat);
        RemoveAll(a, pat) + RemoveAll(b, pat);
      }
    } else {
      NoMatchInFront(a, b, pat);
      var rest := RemoveAll(a[1..], pat);
      calc {
        RemoveAll(s, pat);
        [a[0]] + RemoveAll(a[1..] + b, pat);
        { RemoveAllBoundary(a[1..], b, pat); }
        [a[0]] + (rest + RemoveAll(b, pat));
        ([a[0]] + rest) + RemoveAll(b, pat);
        { if |a| < n { assert rest == a[1..]; } }
        RemoveAll(a, pat) + RemoveAll(b, pat);
      }
    }
  }

  /** An occurrence at the front of `a + b` lies inside `a` when `b` starts outside the pattern. */
  lemma MatchInFront(a: string, b: string, pat: string)
    requires |pat| > 0 && |b| > 0 && b[0] !in pat
    requires |pat| <= |a + b| && (a + b)[..|pat|] == pat
    ensures |pat| <= |a| && a[..|pat|] == pat
    ensures (a + b)[|pat|..] == a[|pat|..] + b
  {
    WindowReaches(a, b, |pat|);
    assert a[..|pat|] == (a + b)[..|pat|];
  }

  /** Without an occurrence at the front of `a + b`, the first character of `a` is kept. */
  lemma NoMatchInFront(a: string, b: string, pat: string)
    requires |pat| > 0 && |a| > 0
    requires |pat| <= |a + b| && (a + b)[..|pat|] != pat
    ensures (a + b)[0] == a[0] && (a + b)[1..] == a[1..] + b
    ensures |pat| <= |a| ==> a[..|pat|] != pat
    ensures |a| < |pat| ==> RemoveAll(a, pat) == a && [a[0]] + a[1..] == a
  {
    if |pat| <= |a| {
      assert a[..|pat|] == (a + b)[..|pat|];
    }
  }

  // ---------------------------------------------------------------------
  // strip
  // ---------------------------------------------------------------------

  /** Python's `str.isspace` for one character (ASCII and Unicode separators). */
  predicate IsSpace(c: char) {
    var k := c as int;
    k == 0x20 || 0x09 <= k <= 0x0D || 0x1C <= k <= 0x1F || k == 0x85 || k == 0xA0
    || k == 0x1680 || 0x2000 <= k <= 0x200A || k == 0x2028 || k == 0x2029
    || k == 0x202F || k == 0x205F || k == 0x3000
  }

  predicate AllSpace(s: string) {
    forall i :: 0 <= i < |s| ==> IsSpace(s[i])
  }

  /** How many leading whitespace characters `s.lstrip()` drops. */
  function LeadingSpace(s: string): (n: nat)
    ensures n <= |s| && AllSpace(s[..n])
    ensures n < |s| ==> !IsSpace(s[n])
  {
    if |s| == 0 || !IsSpace(s[0]) then 0
    else
      var n := 1 + LeadingSpace(s[1..]);
      assert forall i :: 1 <= i < n ==> s[..n][i] == s[1..][..n - 1][i - 1];
      n
  }

  /** How many characters `s.rstrip()` keeps. */
  function RstripLength(s: string): (n: nat)
    ensures n <= |s| && AllSpace(s[n..])
    ensures n > 0 ==> !IsSpace(s[n - 1])
  {
    if |s| == 0 || !IsSpace(s[|s| - 1]) then |s|
    else
      var n := RstripLength(s[..|s| - 1]);
      assert forall i :: n <= i < |s| - 1 ==> s[i] == s[..|s| - 1][i];
      n
  }

  /** `part` appears in `s` starting at index `i`. */
  predicate OccursAt(part: string, s: string, i: int) {
    0 <= i <= |s| - |part| && s[i..i + |part|] == part
  }

  /** `s.strip()`: leading whitespace dropped, then trailing whitespace. */
  function Strip(s: string): (r: string)
    ensures |r| <= |s|
    ensures exists i :: OccursAt(r, s, i)
    ensures |r| > 0 ==> !IsSpace(r[0]) && !IsSpace(r[|r| - 1])
  {
    var lo := LeadingSpace(s);
    var t := s[lo..];
    var n := RstripLength(t);
    assert s[lo..lo + n] == t[..n];
    assert n > 0 ==> t[..n][0] == s[lo];
    assert OccursAt(t[..n], s, lo);
    t[..n]
  }

  lemma {:induction false} LeadingSpaceOf(pre: string, rest: string)
    requires AllSpace(pre)
    requires |rest| > 0 && !IsSpace(rest[0])
    ensures LeadingSpace(pre + rest) == |pre|
  {
    if |pre| > 0 {
      assert (pre + rest)[1..] == pre[1..] + rest;
      LeadingSpaceOf(pre[1..], rest);
    } else {
      assert pre + rest == rest;
    }
  }

  lemma {:induction false} RstripLengthOf(rest: string, post: string)
    requires AllSpace(post)
    requires |rest| > 0 && !IsSpace(rest[|rest| - 1])
    ensures RstripLength(rest + post) == |rest|
  {
    if |post| > 0 {
      var s := rest + post;
      assert s[..|s| - 1] == rest + post[..|post| - 1];
      RstripLengthOf(rest, post[..|post| - 1]);
    } else {
      assert rest + post == rest;
    }
  }

  lemma {:induction false} LeadingSpaceOfSpace(s: string)
    requires AllSpace(s)
    ensures LeadingSpace(s) == |s|
  {
    if |s| > 0 {
      LeadingSpaceOfSpace(s[1..]);
    }
  }

  /** Only whitespace strips to the empty string. */
  lemma StripOfSpace(s: string)
    requires AllSpace(s)
    ensures Strip(s) == ""
  {
    LeadingSpaceOfSpace(s);
  }

  /**
   * `strip` gives exactly the text between surrounding whitespace: when
   * `s` is whitespace, then a core that starts and ends with a
   * non-whitespace character, then whitespace, the core is the result.
   */
  lemma StripSurrounded(pre: string, core: string, post: string)
    requires AllSpace(pre) && AllSpace(post)
    requires |core| > 0 && !IsSpace(core[0]) && !IsSpace(core[|core| - 1])
    ensures Strip(pre + core + post) == core
  {
    var s := pre + core + post;
    assert s == pre + (core + post);
    LeadingSpaceOf(pre, core + post);
    assert s[|pre|..] == core + post;
    RstripLengthOf(core, post);
    assert (core + post)[..|core|] == core;
  }

  /**
   * Conversely, every string is its stripped text with whitespace on
   * either side, and that text starts and ends with non-whitespace.
   */
  lemma StripDecomposes(s: string) returns (pre: string, post: string)
    ensures s == pre + Strip(s) + post
    ensures AllSpace(pre) && AllSpace(post)
    ensures |Strip(s)| == 0 || (!IsSpace(Strip(s)[0]) && !IsSpace(Strip(s)[|Strip(s)| - 1]))
  {
    var lo := LeadingSpace(s);
    var t := s[lo..];
    var n := RstripLength(t);
    pre := s[..lo];
    post := t[n..];
    ThreeParts(s, lo, n);
    if n > 0 {
      assert t[..n][0] == s[lo];
    }
  }

  lemma ThreeParts(s: string, lo: nat, k: nat)
    requires lo + k <= |s|
    ensures s == s[..lo] + s[lo..lo + k] + s[lo + k..]
  {
  }
}

=== FILE: wire.dfy ===
/**
 * The daemon's fixed-width reply: `struct.pack("i", v)` on the daemon's
 * side and a `recv` into a C `int` on the client's side. Both ends run on
 * the same host and so share one byte order; little-endian two's
 * complement is modelled.
 */
module Wire {

  type Byte = b: int | 0 <= b < 256

  /** `struct.calcsize("i")`, which is also the client's `sizeof(int)`. */
  const IntSize: nat := 4

  predicate IsInt32(v: int) {
    -0x8000_0000 <= v < 0x8000_0000
  }

  /** `struct.pack("i", v)`; values outside 32 bits make the packer raise, hence the precondition. */
  function PackInt(v: int): (bs: seq<Byte>)
    requires IsInt32(v)
    ensures |bs| == IntSize
  {
    var u := if v < 0 then v + 0x1_0000_0000 else v;
    var q1 := u / 0x100;
    var q2 := q1 / 0x100;
    var q3 := q2 / 0x100;
    assert q3 < 0x100 by {
      Quotient(u, q1, 0x100_0000);
      Quotient(q1, q2, 0x1_0000);
    }
    [u % 0x100, q1 % 0x100, q2 % 0x100, q3]
  }

  /** The C `int` whose storage holds the four received bytes. */
  function UnpackInt(bs: seq<Byte>): (v: int)
    requires |bs| == IntSize
    ensures IsInt32(v)
  {
    var u := Unsigned(bs);
    if u < 0x8000_0000 then u else u - 0x1_0000_0000
  }

  /** The four bytes read as an unsigned little-endian number. */
  function Unsigned(bs: seq<Byte>): (u: int)
    requires |bs| == IntSize
    ensures 0 <= u < 0x1_0000_0000
  {
    bs[0] as int + 0x100 * (bs[1] as int + 0x100 * (bs[2] as int + 0x100 * (bs[3] as int)))
  }

  /** Dividing by 256 a number below `256 * bound` leaves a quotient below `bound`. */
  lemma Quotient(u: int, q: int, bound: int)
    requires 0 <= u < 0x100 * bound && q == u / 0x100
    ensures q < bound
  {
  }

  /** Euclidean division by 256 of a byte plus a multiple of 256. */
  lemma DivStep(a: int, r: int)
    requires 0 <= a < 0x100
    ensures (a + 0x100 * r) / 0x100 == r && (a + 0x100 * r) % 0x100 == a
  {
  }

  /** The client decodes exactly the value the daemon packed. */
  lemma UnpackPack(v: int)
    requires IsInt32(v)
    ensures UnpackInt(PackInt(v)) == v
  {
    var u := if v < 0 then v + 0x1_0000_0000 else v;
    var q1 := u / 0x100;
    var q2 := q1 / 0x100;
    var q3 := q2 / 0x100;
    assert q2 == q2 % 0x100 + 0x100 * q3;
    assert q1 == q1 % 0x100 + 0x100 * q2;
    assert u == u % 0x100 + 0x100 * q1;
    assert Unsigned(PackInt(v)) == u;
  }

  /** Every four-byte reply is the packing of the value it decodes to. */
  lemma PackUnpack(bs: seq<Byte>)
    requires |bs| == IntSize
    ensures PackInt(UnpackInt(bs)) == bs
  {
    var r2 := bs[2] as int + 0x100 * (bs[3] as int);
    var r1 := bs[1] as int + 0x100 * r2;
    var u := bs[0] as int + 0x100 * r1;
    assert u == Unsigned(bs);
    DivStep(bs[0], r1);
    DivStep(bs[1], r2);
    DivStep(bs[2], bs[3]);
    DivStep(bs[3], 0);
    var p := PackInt(UnpackInt(bs));
    assert p[0] == bs[0] && p[1] == bs[1] && p[2] == bs[2] && p[3] == bs[3];
  }
}

=== FILE: wrappers.dfy ===
/** Optional values, used where the Python code yields None or a value. */
module Wrappers {

  datatype Option<+T> = None | Some(value: T)

}
